=== FILE: README.md ===
# Bus-pass lifecycle and fare resolution, modelled in Dafny

The system issues, tracks and verifies student bus passes. A student fills in a
two-tab application form. The student tab holds identity and contact fields. The
bus tab holds route, destination, pass duration and the amount paid. The form
looks the fare up in a route → stop → {semester, yearly} catalogue and posts the
application to an Express/Mongoose backend, which stores it as sent.

Staff use a dashboard that shows:
- statistics;
- filtered student, route and payment tables;
- analytics tallies;
- a status toggle.

A verification endpoint resolves a scanned token to a pass and answers valid or
not. A small route page and a keyword-driven help chat complete the core.

The model follows the code as written. These behaviours of the code are easy to miss;
each is stated and proved as a property of the model:
- The server never recomputes `passAmount` or `pendingAmount`, on create or on update. No pending-amount invariant holds of the store (`PassStore.CreateKeepsUnreconciledAmounts`, `PassStore.UpdateDoesNotRecomputePending`). The amounts reconcile only for records that came through the form (`Lifecycle.AcceptedFormIsStored`).
- Verification has no expiry check; only `status == "active"` decides (`Verification.NoExpiryCheck`, `Lifecycle.ExpiredPassStillVerifies`).
- The dashboard's "active" means "not inactive and inside the window". A record without a status is therefore active there and inactive at the gate (`Lifecycle.MissingStatusDisagrees`).
- Route names are unique exactly (case-sensitively), through the unique index. A route update replaces the stops whenever a stops array is sent, even an empty one (`RouteStore.EmptyStopsReplace`).
- The form's submit handler runs only the bus-tab check and does not re-check the student tab. Only the tab gating of the user interface, which is not modelled, keeps an invalid student tab from being posted. The server rejects such a form only when a required field is empty (`Lifecycle.InvalidStudentStillSubmitted`); a malformed name, email or mobile number is stored as sent (`Lifecycle.MalformedContactStored`).
- An update runs no schema validators, so a status outside the enum can be stored (`PassStore.UpdateSkipsStatusEnum`).

## Files and modules

| file | module | models |
|---|---|---|
| wrappers.dfy | Wrappers | `Option`, `Result` |
| text.dfy | Text | JavaScript string helpers: `toLowerCase` on ASCII, `includes`, `trim` with the `\s` class, decimal printing and parsing |
| seqs.dfy | Seqs | `filter`, `find`, `findIndex`, `map`, sums, counts, the set a loop collects |
| dates.dfy | Dates | calendar dates with 0-based months; `setMonth` with day roll-over |
| catalogue.dfy | Catalogue | routes, stops and the fare lookup of the form |
| pass_form.dfy | PassForm | src/components/forms/BusPassForm.tsx |
| pass_store.dfy | PassStore | backend/models/BusPass.js, backend/routes/busPassRoutes.js |
| route_store.dfy | RouteStore | backend/models/Route.js, backend/routes/routeRoutes.js |
| verify.dfy | Verification | backend/routes/verifyRoutes.js |
| dashboard.dfy | Dashboard | src/components/Dashboard.tsx |
| route_details.dfy | RouteDetails | src/components/RouteDetails.tsx |
| chat.dfy | Chat | the `/api/chat` handler of backend/server.js |
| lifecycle.dfy | Lifecycle | properties that span the form, the store, the dashboard and the verifier |

Outside inputs become parameters:
- the record id and clock reading of a request;
- "now" on the dashboard;
- the current year of the form;
- whether the mailer fails.

## Model

| member | source | states |
|---|---|---|
| Dates.AddMonths | src/components/Dashboard.tsx:136-138 | adding k months gives a valid date; the day is kept and the month index moves by exactly k iff the day exists in the target month; otherwise the date rolls over into the month after, on day d − (days in the target month), which is at most 3; k > 0 moves strictly later |
| Dates.AddMonthsKeepsDay | src/components/Dashboard.tsx:136-138 | up to the 28th the day is kept and the month index moves by exactly k |
| Dates.AddMonthsCompose | src/components/Dashboard.tsx:136-138 | up to the 28th, adding a then b months equals adding a + b |
| Dates.AddMonthsNotMonotone | src/components/Dashboard.tsx:138 | 31 January + 1 month is 3 March, the same as 1 March + 2 days: roll-over breaks monotonicity in the day |
| Catalogue.FindRoute | src/components/forms/BusPassForm.tsx:182 | the route found has exactly the requested name and no earlier route has that name, as `Array.find` returns the first match; none is found iff no route has it |
| Catalogue.FindStop | src/components/forms/BusPassForm.tsx:184 | the stop found has exactly the requested name and no earlier stop has that name, so among duplicate stop names the first sets the fare; none is found iff no stop has it |
| Catalogue.LookupFare | src/components/forms/BusPassForm.tsx:182-186 | no fare iff the route or the stop is unknown; a fare found is the price, for the requested duration, of the first stop with that name on the first route with that name, so it is a price the catalogue lists |
| PassForm.FareEffect | src/components/forms/BusPassForm.tsx:176-187 | an empty route or destination gives 0; an unknown route or stop keeps the previous amount; a known pair gives that stop's semester or yearly price |
| PassForm.FareEffectPicksDuration | src/components/forms/BusPassForm.tsx:186 | a semester pass gets the stop's semester price, a yearly pass its yearly price |
| PassForm.FareEffectIdempotent | src/components/forms/BusPassForm.tsx:176-187 | re-running the effect with unchanged inputs leaves the amount unchanged |
| PassForm.StepKeepsAmountFromCatalogue | src/components/forms/BusPassForm.tsx:176-187 | every bus-tab event keeps the pass amount at 0 or a listed catalogue price |
| PassForm.ChooseRouteClearsAmount | src/components/forms/BusPassForm.tsx:389 | choosing a route clears the destination and so resets the amount to 0 |
| PassForm.PendingAmount | src/components/forms/BusPassForm.tsx:189 | the displayed pending amount is never negative, is at least pass − received (NaN or 0 received reads as 0), and is 0 or exactly that difference |
| PassForm.PayloadPending | src/components/forms/BusPassForm.tsx:263 | the payload's pending amount is NaN iff the received amount is, and otherwise equals the displayed pending amount |
| PassForm.AcademicYearOf | src/components/forms/BusPassForm.tsx:168-174 | the derived academic year is never empty; an empty date gives "NaN-NaN" |
| PassForm.YearSpanRoundTrip | src/components/forms/BusPassForm.tsx:172 | the text "y-(y+1)" parses back to the two years |
| PassForm.AcademicYearCutoff | src/components/forms/BusPassForm.tsx:168-174 | June to December of Y gives "Y-(Y+1)", January to May gives "(Y-1)-Y"; the second year is the first plus one |
| PassForm.AcademicYearOptions | src/components/forms/BusPassForm.tsx:145-152 | there are exactly seven academic-year choices |
| PassForm.AcademicYearOptionsAscending | src/components/forms/BusPassForm.tsx:145-152 | choice i is "(c-1+i)-(c+i)" for the current year c, so the choices ascend by one year |
| PassForm.AcademicYearOffered | src/components/forms/BusPassForm.tsx:145-174 | a date in the current year derives an academic year that the dropdown offers |
| PassForm.YearOptions | src/components/forms/BusPassForm.tsx:191 | the class choices are maxYear strings, the i-th reading as the number i + 1 with no leading zero, so exactly the decimal text "1" .. "maxYear" |
| PassForm.ToOptions | src/components/forms/BusPassForm.tsx:193-197 | no route or an unknown route offers no destination; a known route offers its stop names in order |
| PassForm.OfferedDestinationHasFare | src/components/forms/BusPassForm.tsx:193-197 | every offered destination has a fare for either duration |
| PassForm.EmailOkIff | src/components/forms/BusPassForm.tsx:206 | the left-to-right email check accepts exactly the strings "a@b.c" with a, b, c non-empty and free of whitespace and '@' |
| PassForm.ValidateStudent | src/components/forms/BusPassForm.tsx:199-212 | only the nine tab fields can be flagged, each by its own check: the date iff unset, the academic year, department, class and semester iff empty, the student id iff it is all whitespace, the name iff it fails the letters-and-spaces check, the mobile iff it is not exactly ten digits, the email iff the email check fails |
| PassForm.ValidateStudentFlags | src/components/forms/BusPassForm.tsx:201-206 | in the source's own terms: the student id is flagged iff it trims to "", the email iff the regular expression does not match it |
| PassForm.ValidateStudentEmptyIff | src/components/forms/BusPassForm.tsx:199-212 | the validator flags nothing iff every one of the nine field checks passes |
| PassForm.StudentValidIff | src/components/forms/BusPassForm.tsx:154-165 | the memo that enables the bus tab accepts exactly the tabs the validator passes |
| PassForm.BlankNameAccepted | src/components/forms/BusPassForm.tsx:204 | a name of two spaces passes, since the name class admits whitespace |
| PassForm.ValidateBus | src/components/forms/BusPassForm.tsx:214-222 | the bus tab passes iff route and destination are non-empty and 0 ≤ received ≤ pass amount, with NaN failing |
| PassForm.Submit | src/components/forms/BusPassForm.tsx:243-264 | a payload is sent iff the bus tab passes; it carries every field of both tabs (course, date, academic year, the student's identity and contact fields, route and destination), the amounts, a pending amount that with the received amount makes up the pass amount, no status, and the pass type's name |
| PassStore.CreatePass | backend/models/BusPass.js:3-21 | a save succeeds iff every required field is present and non-empty, the status is in the enum and the id is fresh; the record holds the body verbatim, the status defaults to active, and both timestamps are now |
| PassStore.HandleCreate | backend/routes/busPassRoutes.js:7-36 | 201 with the saved record or 500 with the store unchanged; an email is requested iff the save succeeded and EmailId is non-empty |
| PassStore.SendFailureIsContained | backend/routes/busPassRoutes.js:27-31 | a failing mailer changes neither the status code, nor the store, nor the saved record |
| PassStore.EveryCreateRequestsEmail | backend/routes/busPassRoutes.js:13 | every successful create requests an email, since EmailId is required |
| PassStore.CreateKeepsUnreconciledAmounts | backend/models/BusPass.js:17-19 | amounts that do not reconcile are stored as sent |
| PassStore.SharedStudentIdAllowed | backend/models/BusPass.js:7 | a second record may carry the same student id |
| PassStore.InsertByCreated | backend/routes/busPassRoutes.js:41 | inserting into a newest-first list keeps it newest first, and the result is the old list plus exactly that record, as a multiset |
| PassStore.ListNewestFirst | backend/routes/busPassRoutes.js:39-47 | the list holds every stored record and nothing else, ordered by createdAt descending |
| PassStore.DeletePass | backend/routes/busPassRoutes.js:50-58 | an unknown id is NotFound (404) with nothing changed; otherwise exactly that record is removed and the others are untouched |
| PassStore.Merge | backend/routes/busPassRoutes.js:63 | fields the body sets overwrite, the others are kept, id and createdAt stay, updatedAt becomes now |
| PassStore.MergeIdempotent | backend/routes/busPassRoutes.js:63 | applying the same body twice gives the same record as once |
| PassStore.MergeEmptyBody | backend/routes/busPassRoutes.js:63 | an empty body changes nothing but updatedAt |
| PassStore.UpdatePass | backend/routes/busPassRoutes.js:61-69 | an unknown id is NotFound; otherwise the merged record replaces the old one and is returned, and the rest of the store is untouched |
| PassStore.UpdateDoesNotRecomputePending | backend/routes/busPassRoutes.js:63 | changing the pass amount leaves the stored pending amount as it was |
| PassStore.UpdateSkipsStatusEnum | backend/routes/busPassRoutes.js:63 | an update can store a status outside the enum |
| RouteStore.ToStops | backend/models/Route.js:3-12 | the embedded stops keep the order and values of the stop bodies |
| RouteStore.CreateRoute | backend/routes/routeRoutes.js:16-29 | a route is created iff name and origin are non-empty, every stop is complete, the id is fresh and the name unused; a failure is a 400; the route stores the supplied stops in order, or none when no stops are sent; the store invariant is preserved |
| RouteStore.CreateIgnoresOtherKeys | backend/routes/routeRoutes.js:17-21 | body keys other than name, from and stops make no difference |
| RouteStore.DuplicateNameRejected | backend/models/Route.js:10 | a name another route already has is rejected |
| RouteStore.Patched | backend/routes/routeRoutes.js:37-39 | name and origin overwrite only when non-empty; the stops are replaced by the supplied stops whenever a stops array is sent, and kept otherwise |
| RouteStore.UpdateRoute | backend/routes/routeRoutes.js:32-46 | an unknown id is 404; for a known id the update succeeds iff every stop is complete, the patched name and origin are non-empty and no other route has the name; any failure is a 400; a success stores the patched route; the invariant is preserved |
| RouteStore.FalsyFieldsKept | backend/routes/routeRoutes.js:37-38 | an update with absent or empty name and origin and no stops changes nothing |
| RouteStore.EmptyStopsReplace | backend/routes/routeRoutes.js:39 | an empty stops array replaces the stops |
| RouteStore.DeleteRoute | backend/routes/routeRoutes.js:49-59 | an unknown id is 404; otherwise exactly that route goes and the others stay |
| RouteStore.ListRoutes | backend/routes/routeRoutes.js:6-13 | every stored route appears exactly once |
| Verification.Judge | backend/routes/verifyRoutes.js:23-31 | a resolved pass is valid iff its status is exactly "active" |
| Verification.Resolve | backend/routes/verifyRoutes.js:11-17 | a student-id match is used first; otherwise a 24-hex token is looked up as a record id; the verdict is NotFound iff neither finds a record |
| Verification.Respond | backend/routes/verifyRoutes.js:19-31 | 404 iff not found; `valid` iff the verdict is Valid; the record is returned iff one was found; each verdict gets its own fixed message: not found, inactive or valid |
| Verification.ValidIffActive | backend/routes/verifyRoutes.js:23 | the reply is valid iff the status is "active"; a record with no status is not valid |
| Verification.NoExpiryCheck | backend/routes/verifyRoutes.js:27-31 | the issue date, pass type and timestamps do not affect validity |
| Dashboard.DurationMonths | src/components/Dashboard.tsx:137 | "monthly" lasts 1 month, "semester" 6, and any other pass type 12 |
| Dashboard.ValidUntil | src/components/Dashboard.tsx:136-138 | the window ends strictly after the issue date; up to the 28th it ends on the same day, the duration's months later |
| Dashboard.ComputeStats | src/components/Dashboard.tsx:129-145 | total = number of records; active = number of records the dashboard counts active; routes = number of distinct route keys; pending = sum of effective pending amounts; active ≤ total and routes ≤ total |
| Dashboard.RouteKeyAmbiguous | src/components/Dashboard.tsx:140 | the route key can merge two different (route, destination) pairs |
| Dashboard.EffectivePending | src/components/Dashboard.tsx:141 | the stored pending amount when present; otherwise 0 or pass − received, whichever is larger |
| Dashboard.PendingTotalNonNegative | src/components/Dashboard.tsx:141-142 | with no negative stored pending amount, the pending total is not negative |
| Dashboard.Query | src/components/Dashboard.tsx:148 | the query is empty iff the search is all whitespace |
| Dashboard.FilteredStudents | src/components/Dashboard.tsx:147-164 | the result is an order-preserving subsequence of the records; it holds exactly the records that pass the course, status and search filters |
| Dashboard.BlankQueryKeepsAll | src/components/Dashboard.tsx:150-161 | course "all", no status chip and a blank search list every record |
| Dashboard.ActiveChipMatchesStats | src/components/Dashboard.tsx:153-159 | the "active" chip lists exactly the records the statistics count as active |
| Dashboard.CourseIgnoresCase | src/components/Dashboard.tsx:150 | the course filter ignores the case of the record's course |
| Dashboard.RowOf | src/components/Dashboard.tsx:168-177 | a route row carries the route's id, name and origin, "College" as end point, and the number of records naming the route exactly |
| Dashboard.RouteRows | src/components/Dashboard.tsx:166-179 | the rows are a subsequence of the per-route rows, in route order; every route whose row matches the search (any route, for a blank search) has its row listed, and only matching rows are listed; every row ends at "College" and counts the records on its route |
| Dashboard.RouteCountIsCaseSensitive | src/components/Dashboard.tsx:169 | a record whose route differs only in case is not counted |
| Dashboard.PaymentLabel | src/components/Dashboard.tsx:666 | a payment row shows "Completed" iff its pending amount is 0, else "Pending" |
| Dashboard.PaymentRows | src/components/Dashboard.tsx:181-190 | the rows are a subsequence of the per-record rows, in record order; every record whose row matches the search has its row listed, and only matching rows are listed; each row carries its record's effective pending amount |
| Dashboard.Bump | src/components/Dashboard.tsx:200-202 | one increment adds 1 to that key's count and to the total, keeps earlier keys in place, and appends a new key only if it is absent |
| Dashboard.TallyCounts | src/components/Dashboard.tsx:199-203 | each key's count is its number of occurrences |
| Dashboard.TallyTotal | src/components/Dashboard.tsx:199-203 | the counts add up to the number of records |
| Dashboard.TallyDistinct | src/components/Dashboard.tsx:208-210 | no key gets two bars |
| Dashboard.DepartmentKey | src/components/Dashboard.tsx:201 | an empty department is filed as "Unknown" |
| Dashboard.AnalyticsAccountForEveryRecord | src/components/Dashboard.tsx:199-203 | the route, department and pass-type tallies each add up to the number of records; no department bar is empty-named |
| Dashboard.ToggledStatus | src/components/Dashboard.tsx:558 | the toggle yields "active" iff the status was "inactive", else "inactive" |
| Dashboard.ApplyLocalUpdate | src/components/Dashboard.tsx:252 | only rows with the updated id change, and they become the returned record; an error reply changes no row |
| Dashboard.RemoveLocal | src/components/Dashboard.tsx:219 | the table loses exactly the rows with that id and keeps the others in order |
| Dashboard.RemoveAbsentIsIdentity | src/components/Dashboard.tsx:219 | removing an id no row has leaves the table unchanged |
| RouteDetails.RouteParam | src/components/RouteDetails.tsx:38 | a missing parameter reads as "", any other is lower-cased |
| RouteDetails.FindRouteByParam | src/components/RouteDetails.tsx:40 | a route is found iff some route's lower-cased name equals the lower-cased parameter, and it is the first such route |
| RouteDetails.LookupIgnoresCase | src/components/RouteDetails.tsx:38-40 | a parameter and its lower-cased form find the same route |
| RouteDetails.InitialStop | src/components/RouteDetails.tsx:47 | the first stop's name, or "" for a route without stops |
| RouteDetails.InitialStopIsAStop | src/components/RouteDetails.tsx:47 | for a route with stops, the initial selection is one of its stops |
| RouteDetails.Render | src/components/RouteDetails.tsx:64-66 | the not-found page, with the text "Route not found.", shows iff the lookup fails; otherwise the page shows that route with its initial stop selected |
| RouteDetails.EnsureSangli | src/components/RouteDetails.tsx:68-71 | the input is returned unchanged if its lower-cased form contains "sangli", else ", Sangli, Maharashtra" is appended |
| RouteDetails.EnsureSangliMentionsSangli | src/components/RouteDetails.tsx:68-71 | the result always contains "sangli" once lower-cased |
| RouteDetails.EnsureSangliIdempotent | src/components/RouteDetails.tsx:68-71 | applying it twice equals applying it once |
| RouteDetails.EnsureSangliKeepsInput | src/components/RouteDetails.tsx:70 | the input is a prefix of the result |
| Chat.ChooseReply | backend/server.js:21-37 | routes reply iff the lower-cased message contains "route" or "bus"; else status iff "status" or "active"; else fees iff "payment" or "fee"; else greeting iff "hello" or "hi"; else the fallback |
| Chat.ReplyIgnoresCase | backend/server.js:23 | the reply depends on the message only through its lower-cased form |
| Chat.RoutesTakePrecedence | backend/server.js:26-27 | a message asking about routes gets the routes reply whatever follows it |
| Chat.ThisIsAGreeting | backend/server.js:32-33 | "this" gets the greeting, because it contains "hi" |
| Lifecycle.ValidStudentFillsRequired | src/components/forms/BusPassForm.tsx:154-165 | a student tab that passes fills every required text field |
| Lifecycle.AcceptedFormIsStored | src/components/forms/BusPassForm.tsx:243-264 | a form that passes both tabs, with a course set and a fresh id, is stored as active, on the chosen route and destination, with pending + received = pass amount |
| Lifecycle.InvalidStudentStillSubmitted | src/components/forms/BusPassForm.tsx:243-244 | the submit handler does not re-check the student tab: given a form with an empty name and a passing bus tab, it builds a payload, and the server's save then fails with a validation error |
| Lifecycle.MalformedContactStored | backend/models/BusPass.js:3-21 | the schema checks only presence: a form whose mobile number is "123" and email "x", with every other field filled and a passing bus tab, fails the student-tab check yet is posted and stored with those values |
| Lifecycle.ToggleRoundTrip | src/components/Dashboard.tsx:244-256 | the toggle stores the toggled status; merging the reply changes only that row's status, and no other row |
| Lifecycle.ToggleTwice | src/components/Dashboard.tsx:558 | toggling twice restores an enum status; a record with no status comes back "active" |
| Lifecycle.DashboardAgreesWithVerifier | src/components/Dashboard.tsx:139 | inside the window and with an enum status, dashboard-active iff verifier-valid |
| Lifecycle.MissingStatusDisagrees | backend/routes/verifyRoutes.js:23 | inside the window, a record with no status is active on the dashboard but inactive at the gate |
| Lifecycle.ExpiredPassStillVerifies | backend/routes/verifyRoutes.js:27-31 | an active pass past its window is off the dashboard's count but still verifies as valid |
| Lifecycle.SemesterPassExample | src/components/Dashboard.tsx:136-139 | a semester pass issued 10 January 2025 runs to 10 July 2025; on 1 August 2025 the dashboard counts it inactive and the verifier answers valid |
| Lifecycle.DeleteRouteInDb | backend/routes/routeRoutes.js:49-59 | deleting a route touches no pass record |
| Lifecycle.DeletedRouteOrphansPasses | backend/routes/routeRoutes.js:54 | passes on a deleted route stay, naming a route that no longer exists |

## Left out

- Rendering, styles, React hooks and state plumbing, `fetch`, alerts, confirms and the QR scanner: these are user interface and I/O. The two dashboard fetch replies are modelled as values: the updated record or an error, and no reply for a delete.
- The database: records live in a map from id to record. Storage, connection, server start, casting and timeouts are not modelled, and neither are the 500 replies from internal errors other than a failed save.
- Nodemailer: an email request is a value, and the failure of the send is a boolean parameter.
- Real date parsing, time zones and `toLocaleString`: dates are (year, 0-based month, day) and "now" is a date plus milliseconds into the day.
- Unicode case mapping: `toLowerCase` is modelled on ASCII letters only.
- Amounts are integers. Fractional amounts and NaN are not modelled once they reach the store. On the form, the received amount may be NaN.
- The order of `Object.entries`: the tallies keep first-insertion order, and JavaScript's rule that integer-like keys come first is not modelled.
- Dashboard.Bump / Dashboard.Tally: the tallies are modelled as clean maps. The source counts into plain objects, where a key naming an `Object.prototype` member misbehaves. For "constructor" or "toString", `obj[k] || 0` reads an inherited function and `+ 1` concatenates strings. For "__proto__" the assignment does not create an entry. The record fields used as keys accept any text, so for such keys the source's counts need not add up to the number of records, while the model's always do (`Dashboard.TallyTotal`, `Dashboard.AnalyticsAccountForEveryRecord`).
- Chat.ChooseReply: the message is modelled as a string. A request with a missing or non-string `message` throws at `message.toLowerCase()`, outside any try, and Express answers 500; this is not modelled.
- The analytics percentages are floating point and are not modelled.
- The fare catalogue module `src/data/busData` is not part of this model; it is a parameter. The seed script, authentication, lost and found, the chatbot widget and the per-course form wrappers are out of scope.
- Verification.Resolve: when several records share a student id, the model may pick any of them, as the database may. The token is modelled as a string. A request without a `data` field, or with a number that matches no student id, throws at `data.match` and is answered with 500; this is not modelled. An object `data` such as `{"$ne": ""}` becomes a query operator in `findOne` and can match an arbitrary record, so a pass can verify as valid without its id being known; this is not modelled either.
- PassForm.AcademicYearOf: its own contract covers only the empty date and a non-empty result. The June cut-off is stated by `PassForm.AcademicYearCutoff`, for years ≥ 1.
- PassStore.ListNewestFirst: records created at the same instant may come in any order, since the sort does not fix one.
- Dashboard.ComputeStats: the route count is the number of distinct route-key strings, exactly as computed. The key can merge different (route, destination) pairs (`Dashboard.RouteKeyAmbiguous`).
- Dashboard.ApplyLocalUpdate: the row becomes the returned record. The spread `{ ...r, ...updated }` would keep any field the reply lacks, but the update handler replies with the whole stored document, so the two agree.

=== FILE: catalogue.dfy ===
/**
 * The fare catalogue the application form reads: routes, each with an
 * ordered list of stops, each stop priced for a semester pass and for a
 * yearly pass. Nothing requires stop names to be distinct or fares to be
 * positive; lookups take the first match, as `Array.prototype.find` does.
 */
module Catalogue {
  import opened Wrappers
  import opened Seqs

  datatype Stop = Stop(name: string, semester: int, yearly: int)

  datatype BusRoute = BusRoute(name: string, stops: seq<Stop>)

  /** The two durations the application form offers. */
  datatype PassKind = SemesterPass | YearlyPass {
    /** The `passType` string the form submits. */
    function Name(): string {
      match this
      case SemesterPass => "semester"
      case YearlyPass => "yearly"
    }
  }

  /** The first route with exactly this name. */
  function FindRoute(routes: seq<BusRoute>, name: string): (r: Option<BusRoute>)
    ensures r.Some? ==> r.value in routes && r.value.name == name
    ensures r.None? <==> forall i :: 0 <= i < |routes| ==> routes[i].name != name
    ensures r.Some? ==> exists i :: (0 <= i < |routes| && routes[i] == r.value
      && forall j :: 0 <= j < i ==> routes[j].name != name)
  {
    Find(routes, (b: BusRoute) => b.name == name)
  }

  /** The first stop with exactly this name. */
  function FindStop(stops: seq<Stop>, name: string): (r: Option<Stop>)
    ensures r.Some? ==> r.value in stops && r.value.name == name
    ensures r.None? <==> forall i :: 0 <= i < |stops| ==> stops[i].name != name
    ensures r.Some? ==> exists i :: (0 <= i < |stops| && stops[i] == r.value
      && forall j :: 0 <= j < i ==> stops[j].name != name)
  {
    Find(stops, (s: Stop) => s.name == name)
  }

  /** The price of a stop for a pass of the given duration. */
  function PriceOf(stop: Stop, kind: PassKind): int {
    if kind == SemesterPass then stop.semester else stop.yearly
  }

  /** A fare the catalogue lists for some stop of some route. */
  ghost predicate ListedFare(routes: seq<BusRoute>, amount: int) {
    exists i, j :: 0 <= i < |routes| && 0 <= j < |routes[i].stops|
      && (amount == routes[i].stops[j].semester || amount == routes[i].stops[j].yearly)
  }

  /**
   * The fare for a route, stop and duration; `None` when the route or the
   * stop is unknown.
   */
  function LookupFare(routes: seq<BusRoute>, routeName: string, stopName: string, kind: PassKind): (r: Option<int>)
    ensures r.None? <==> FindRoute(routes, routeName).None? || FindStop(FindRoute(routes, routeName).value.stops, stopName).None?
    ensures r.Some? ==> r.value == PriceOf(FindStop(FindRoute(routes, routeName).value.stops, stopName).value, kind)
    ensures r.Some? ==> ListedFare(routes, r.value)
  {
    match FindRoute(routes, routeName)
    case None => None
    case Some(route) =>
      match FindStop(route.stops, stopName)
      case None => None
      case Some(stop) =>
        assert ListedFare(routes, PriceOf(stop, kind)) by {
          var i :| 0 <= i < |routes| && routes[i] == route;
          var j :| 0 <= j < |route.stops| && route.stops[j] == stop;
          assert routes[i].stops[j] == stop;
        }
        Some(PriceOf(stop, kind))
  }
}

=== FILE: chat.dfy ===
/**
 * The help-chat endpoint (`POST /api/chat` in backend/server.js): the message
 * is lower-cased and tested for keywords in a fixed order; the first group
 * that matches picks one of four canned replies, and nothing matching gives
 * the fallback.
 */
module Chat {
  import opened Text

  datatype Reply = RoutesReply | StatusReply | FeesReply | GreetingReply | FallbackReply {
    /** The reply's text, word for word. */
    function Text(): string {
      match this
      case RoutesReply =>
        "We have routes covering Vita, Khanapur, Kadegaon, and more. Check the Route Management tab for details."
      case StatusReply =>
        "You can check your pass status in the Student Management section. Green means Active!"
      case FeesReply =>
        "Pass fees depend on the route and duration (Monthly/Semester/Yearly). Please visit the office for payment issues."
      case GreetingReply =>
        "Hello! How can I assist you with your bus pass today?"
      case FallbackReply =>
        "I'm not sure about that. Try asking about 'routes', 'pass status', or 'deadlines'."
    }
  }

  predicate AsksRoutes(m: string) { Contains(m, "route") || Contains(m, "bus") }
  predicate AsksStatus(m: string) { Contains(m, "status") || Contains(m, "active") }
  predicate AsksFees(m: string) { Contains(m, "payment") || Contains(m, "fee") }
  predicate Greets(m: string) { Contains(m, "hello") || Contains(m, "hi") }

  /** The reply chosen for a message: the first keyword group its lower-cased form hits. */
  function ChooseReply(message: string): (r: Reply)
    ensures r == RoutesReply <==> AsksRoutes(Lower(message))
    ensures r == StatusReply <==> !AsksRoutes(Lower(message)) && AsksStatus(Lower(message))
    ensures r == FeesReply <==>
      !AsksRoutes(Lower(message)) && !AsksStatus(Lower(message)) && AsksFees(Lower(message))
    ensures r == GreetingReply <==>
      !AsksRoutes(Lower(message)) && !AsksStatus(Lower(message)) && !AsksFees(Lower(message))
      && Greets(Lower(message))
  {
    var m := Lower(message);
    if AsksRoutes(m) then RoutesReply
    else if AsksStatus(m) then StatusReply
    else if AsksFees(m) then FeesReply
    else if Greets(m) then GreetingReply
    else FallbackReply
  }

  /** The reply depends on the message only through its lower-cased form. */
  lemma ReplyIgnoresCase(message: string)
    ensures ChooseReply(message) == ChooseReply(Lower(message))
  {
    LowerIdempotent(message);
  }

  /** Appending words never overrides a routes question: that group wins over all the others. */
  lemma RoutesTakePrecedence(a: string, b: string)
    requires AsksRoutes(Lower(a))
    ensures ChooseReply(a + b) == RoutesReply
  {
    LowerConcat(a, b);
    if Contains(Lower(a), "route") {
      ContainsInLeft(Lower(a), Lower(b), "route");
    } else {
      ContainsInLeft(Lower(a), Lower(b), "bus");
    }
  }

  /** The greeting test is a substring test, so "this" (which contains "hi") is greeted. */
  lemma ThisIsAGreeting()
    ensures ChooseReply("this") == GreetingReply
  {
    assert Lower("this") == "this";
    assert OccursAt("this", "hi", 1);
    ContainsAt("this", "hi", 1);
    NotContainsShort("this", "route");
    NotContainsShort("this", "status");
    NotContainsShort("this", "active");
    NotContainsShort("this", "payment");
    NotContainsShort("this", "hello");
    NotContainsFirstChar("this", "bus");
    NotContainsFirstChar("this", "fee");
  }

  /** A string in which the first letter of `t` never appears cannot contain `t`. */
  lemma NotContainsFirstChar(s: string, t: string)
    requires |t| > 0 && t[0] !in s
    ensures !Contains(s, t)
  {
    ContainsIff(s, t);
  }

  /** A string shorter than `t` cannot contain it. */
  lemma NotContainsShort(s: string, t: string)
    requires |s| < |t|
    ensures !Contains(s, t)
  {
    ContainsIff(s, t);
  }
}

=== FILE: dashboard.dfy ===
/**
 * The admin dashboard's derivations (src/components/Dashboard.tsx): the
 * validity window of a pass, the statistics cards, the student, route and
 * payment tables with their filters, the analytics tallies, and the local
 * merges that follow a status toggle or a delete. The records are what the
 * list endpoint returned; "now" is a parameter.
 */
module Dashboard {
  import opened Wrappers
  import opened Text
  import opened Seqs
  import opened Dates
  import PassStore
  import RouteStore

  type PassRecord = PassStore.PassRecord

  // ---- validity window ----

  /** `monthly` lasts 1 month, `semester` 6, and any other pass type 12. */
  function DurationMonths(passType: string): (n: nat)
    ensures n == 1 || n == 6 || n == 12
    ensures n == 1 <==> passType == "monthly"
    ensures n == 6 <==> passType == "semester"
  {
    if passType == "monthly" then 1 else if passType == "semester" then 6 else 12
  }

  /** The issue date moved on by the pass's duration, with `setMonth`'s day roll-over. */
  function ValidUntil(r: PassRecord): (d: Date)
    ensures ValidDate(d) && Before(r.date, d)
    ensures r.date.day <= 28 ==>
      (d.day == r.date.day && MonthIndex(d) == MonthIndex(r.date) + DurationMonths(r.passType))
  {
    AddMonthsKeepsDayIfSmall(r.date, DurationMonths(r.passType));
    AddMonths(r.date, DurationMonths(r.passType))
  }

  lemma AddMonthsKeepsDayIfSmall(d: Date, k: nat)
    requires ValidDate(d)
    ensures d.day <= 28 ==>
      (AddMonths(d, k).day == d.day && MonthIndex(AddMonths(d, k)) == MonthIndex(d) + k)
  {
    if d.day <= 28 {
      AddMonthsKeepsDay(d, k);
    }
  }

  /**
   * The dashboard's notion of an active pass: the window has not closed and
   * the status is not "inactive". A record with no status counts as active.
   */
  predicate IsActivePass(now: Instant, r: PassRecord) {
    NotLaterThan(now, ValidUntil(r)) && r.status != Some(PassStore.Inactive)
  }

  function ActiveAt(now: Instant): PassRecord -> bool {
    r => IsActivePass(now, r)
  }

  // ---- statistics ----

  /** The key of the route set: `${busRoute} -${routeTo} `. */
  function RouteKey(r: PassRecord): string {
    r.busRoute + " -" + r.routeTo + " "
  }

  /**
   * The stored pending amount when the record has one, else
   * `max(0, (passAmount || 0) - (receivedAmount || 0))`.
   */
  function EffectivePending(r: PassRecord): (p: int)
    ensures r.pendingAmount.Some? ==> p == r.pendingAmount.value
    ensures r.pendingAmount.None? ==> p >= 0 && p >= r.passAmount - r.receivedAmount
    ensures r.pendingAmount.None? ==> p == 0 || p == r.passAmount - r.receivedAmount
  {
    match r.pendingAmount
    case Some(v) => v
    case None => if r.passAmount - r.receivedAmount > 0 then r.passAmount - r.receivedAmount else 0
  }

  datatype Stats = Stats(totalStudents: nat, activePasses: nat, totalRoutes: nat, pendingPayments: int)

  /** The statistics cards, computed in one pass over the records. */
  method ComputeStats(records: seq<PassRecord>, now: Instant) returns (st: Stats)
    ensures st.totalStudents == |records|
    ensures st.activePasses == Count(records, ActiveAt(now))
    ensures st.totalRoutes == |KeySet(records, RouteKey)|
    ensures st.pendingPayments == Sum(records, EffectivePending)
    ensures st.activePasses <= st.totalStudents && st.totalRoutes <= st.totalStudents
  {
    var active := 0;
    var routeSet: set<string> := {};
    var pending := 0;
    var i := 0;
    while i < |records|
      invariant 0 <= i <= |records|
      invariant active == Count(records[..i], ActiveAt(now))
      invariant routeSet == KeySet(records[..i], RouteKey)
      invariant pending == Sum(records[..i], EffectivePending)
    {
      var item := records[i];
      TakeSnoc(records, i);
      StatsStep(records[..i], item, now);
      if ActiveAt(now)(item) {
        active := active + 1;
      }
      routeSet := routeSet + {RouteKey(item)};
      pending := pending + EffectivePending(item);
      i := i + 1;
    }
    assert records[..i] == records;
    KeySetBound(records, RouteKey);
    st := Stats(|records|, active, |routeSet|, pending);
  }

  /** What one more record adds to each statistic. */
  lemma StatsStep(prefix: seq<PassRecord>, item: PassRecord, now: Instant)
    ensures Count(prefix + [item], ActiveAt(now))
         == Count(prefix, ActiveAt(now)) + (if ActiveAt(now)(item) then 1 else 0)
    ensures KeySet(prefix + [item], RouteKey) == KeySet(prefix, RouteKey) + {RouteKey(item)}
    ensures Sum(prefix + [item], EffectivePending) == Sum(prefix, EffectivePending) + EffectivePending(item)
  {
    FilterAppend(prefix, item, ActiveAt(now));
    KeySetSnoc(prefix, item, RouteKey);
    assert (prefix + [item])[..|prefix|] == prefix;
  }

  /**
   * The route key does not separate its two parts: a destination and a
   * route name can trade a " -" between them, so two different
   * (route, destination) pairs may count as one route.
   */
  lemma RouteKeyAmbiguous(r: PassRecord)
    ensures RouteKey(r.(busRoute := "a", routeTo := "b -c"))
         == RouteKey(r.(busRoute := "a -b", routeTo := "c"))
  {
  }

  /** When no stored pending amount is negative, the pending total is not negative. */
  lemma {:induction false} PendingTotalNonNegative(records: seq<PassRecord>)
    requires forall i :: 0 <= i < |records| ==>
      records[i].pendingAmount.None? || records[i].pendingAmount.value >= 0
    ensures Sum(records, EffectivePending) >= 0
  {
    SumNonNegative(records, EffectivePending);
  }

  // ---- student table ----

  /** The search box's query: trimmed, then lower-cased. */
  function Query(search: string): (q: string)
    ensures q == "" <==> Blank(search)
  {
    TrimEmptyIff(search);
    Lower(Trim(search))
  }

  /** The course chip: "all", or a course compared without regard to case. */
  predicate InCourse(courseFilter: string, r: PassRecord) {
    courseFilter == "all" || Lower(r.formType) == Lower(courseFilter)
  }

  /** The status chip: "active" keeps only passes the dashboard counts as active. */
  predicate InStatus(statusFilter: string, now: Instant, r: PassRecord) {
    statusFilter != "active"
    || (r.status != Some(PassStore.Inactive) && NotLaterThan(now, ValidUntil(r)))
  }

  /** The six columns the student search looks in. */
  function SearchFields(r: PassRecord): seq<string> {
    [r.studentName, r.studentId, r.busRoute, r.routeTo, r.mobileNo, r.formType]
  }

  /** An empty query matches everything; any other matches a column containing it. */
  predicate MatchesQuery(q: string, fields: seq<string>) {
    q == "" || exists v :: v in fields && Contains(Lower(v), q)
  }

  predicate KeepStudent(courseFilter: string, statusFilter: string, q: string, now: Instant, r: PassRecord) {
    InCourse(courseFilter, r) && InStatus(statusFilter, now, r) && MatchesQuery(q, SearchFields(r))
  }

  function StudentFilter(courseFilter: string, statusFilter: string, q: string, now: Instant): PassRecord -> bool {
    r => KeepStudent(courseFilter, statusFilter, q, now, r)
  }

  /** `filteredStudents`: the records the three controls let through, in list order. */
  function FilteredStudents(records: seq<PassRecord>, courseFilter: string, statusFilter: string,
                            search: string, now: Instant): (r: seq<PassRecord>)
    ensures IsSubsequence(r, records)
    ensures forall i :: 0 <= i < |r| ==>
      InCourse(courseFilter, r[i]) && InStatus(statusFilter, now, r[i])
      && MatchesQuery(Query(search), SearchFields(r[i]))
    ensures forall i :: 0 <= i < |records| ==>
      (KeepStudent(courseFilter, statusFilter, Query(search), now, records[i]) ==> records[i] in r)
  {
    Filter(records, StudentFilter(courseFilter, statusFilter, Query(search), now))
  }

  /** With no course, no status chip and a blank query, every record is listed. */
  lemma BlankQueryKeepsAll(records: seq<PassRecord>, search: string, now: Instant)
    requires Blank(search)
    ensures FilteredStudents(records, "all", "all", search, now) == records
  {
    var q := Query(search);
    FilterAll(records, StudentFilter("all", "all", q, now));
  }

  /**
   * The "active" chip alone lists exactly the records the statistics card
   * counts as active passes.
   */
  lemma ActiveChipMatchesStats(records: seq<PassRecord>, search: string, now: Instant)
    requires Blank(search)
    ensures FilteredStudents(records, "all", "active", search, now) == Filter(records, ActiveAt(now))
    ensures |FilteredStudents(records, "all", "active", search, now)| == Count(records, ActiveAt(now))
  {
    var q := Query(search);
    FilterCongruent(records, StudentFilter("all", "active", q, now), ActiveAt(now));
  }

  /** The course chip ignores the case of the record's course. */
  lemma CourseIgnoresCase(courseFilter: string, r: PassRecord)
    ensures InCourse(courseFilter, r) <==> InCourse(courseFilter, r.(formType := Lower(r.formType)))
  {
    LowerIdempotent(r.formType);
  }

  // ---- route table ----

  datatype RouteRow = RouteRow(routeId: RouteStore.Id, routeName: string, startPoint: string,
                               endPoint: string, students: nat)

  function OnRoute(name: string): PassRecord -> bool {
    (rec: PassRecord) => rec.busRoute == name
  }

  /** One row: the route's origin, "College" as the end point, and its riders by exact name. */
  function RowOf(route: RouteStore.RouteRecord, records: seq<PassRecord>): (row: RouteRow)
    ensures row.routeId == route.id && row.routeName == route.name && row.startPoint == route.from
    ensures row.endPoint == "College"
    ensures row.students <= |records|
    ensures row.students == |Filter(records, OnRoute(route.name))|
  {
    RouteRow(route.id, route.name, route.from, "College", Count(records, OnRoute(route.name)))
  }

  predicate RowMatches(q: string, row: RouteRow) {
    Contains(Lower(row.routeName), q) || Contains(Lower(row.startPoint), q)
  }

  function RowFilter(q: string): RouteRow -> bool {
    row => RowMatches(q, row)
  }

  function RowFor(records: seq<PassRecord>): RouteStore.RouteRecord -> RouteRow {
    (route: RouteStore.RouteRecord) => RowOf(route, records)
  }

  /** `routeRows`: a row per route in route order, then the route search when it is not blank. */
  function RouteRows(routes: seq<RouteStore.RouteRecord>, records: seq<PassRecord>, search: string)
    : (rows: seq<RouteRow>)
    ensures Query(search) == "" ==>
      (|rows| == |routes| && forall i :: 0 <= i < |routes| ==> rows[i] == RowOf(routes[i], records))
    ensures IsSubsequence(rows, Map(routes, RowFor(records)))
    ensures forall i :: 0 <= i < |rows| ==>
      (rows[i].endPoint == "College"
       && rows[i].students == Count(records, OnRoute(rows[i].routeName))
       && (Query(search) == "" || RowMatches(Query(search), rows[i])))
    ensures forall i :: 0 <= i < |routes| ==>
      ((Query(search) == "" || RowMatches(Query(search), RowOf(routes[i], records)))
       ==> RowOf(routes[i], records) in rows)
    ensures |rows| <= |routes|
  {
    var all := Map(routes, RowFor(records));
    var q := Query(search);
    if q == "" then
      SubsequenceRefl(all);
      all
    else
      Filter(all, RowFilter(q))
  }

  /** Rider counts compare route names exactly: a record whose route differs only in case is not counted. */
  lemma RouteCountIsCaseSensitive(rec: PassRecord, route: RouteStore.RouteRecord)
    requires rec.busRoute == "vita" && route.name == "Vita"
    ensures RowOf(route, [rec]).students == 0
  {
    assert Filter([rec], OnRoute(route.name)) == Filter([rec][1..], OnRoute(route.name));
  }

  // ---- payment table ----

  datatype PaymentRow = PaymentRow(record: PassRecord, pending: int)

  /** The badge: "Completed" exactly when nothing is pending. */
  function PaymentLabel(row: PaymentRow): (badge: string)
    ensures badge == "Completed" <==> row.pending == 0
    ensures badge == "Completed" || badge == "Pending"
  {
    if row.pending == 0 then "Completed" else "Pending"
  }

  function PaymentOf(r: PassRecord): PaymentRow {
    PaymentRow(r, EffectivePending(r))
  }

  predicate PaymentMatches(q: string, row: PaymentRow) {
    MatchesQuery(q, [row.record.studentId, row.record.studentName, row.record.busRoute, row.record.formType])
  }

  function PaymentFilter(q: string): PaymentRow -> bool {
    row => PaymentMatches(q, row)
  }

  /** `paymentRows`: every record with its effective pending amount, then the payment search. */
  function PaymentRows(records: seq<PassRecord>, search: string): (rows: seq<PaymentRow>)
    ensures Query(search) == "" ==>
      (|rows| == |records| && forall i :: 0 <= i < |records| ==> rows[i].record == records[i])
    ensures IsSubsequence(rows, Map(records, PaymentOf))
    ensures forall i :: 0 <= i < |rows| ==>
      rows[i].pending == EffectivePending(rows[i].record) && rows[i].record in records
      && PaymentMatches(Query(search), rows[i])
    ensures forall i :: 0 <= i < |records| ==>
      (PaymentMatches(Query(search), PaymentOf(records[i])) ==> PaymentOf(records[i]) in rows)
  {
    var all := Map(records, PaymentOf);
    var q := Query(search);
    assert forall i :: 0 <= i < |all| ==> all[i].record in records by {
      forall i | 0 <= i < |all| ensures all[i].record in records {
        assert all[i].record == records[i];
      }
    }
    if q == "" then
      SubsequenceRefl(all);
      all
    else
      Filter(all, PaymentFilter(q))
  }

  // ---- analytics tallies ----

  /** One bar of a chart: a key and how many records carry it. */
  datatype Entry = Entry(key: string, count: nat)

  /** The count filed under `k`, or 0 when no entry has that key. */
  function Lookup(t: seq<Entry>, k: string): nat {
    if |t| == 0 then 0 else if t[0].key == k then t[0].count else Lookup(t[1..], k)
  }

  function Total(t: seq<Entry>): nat {
    if |t| == 0 then 0 else t[0].count + Total(t[1..])
  }

  predicate DistinctKeys(t: seq<Entry>) {
    forall i, j :: 0 <= i < j < |t| ==> t[i].key != t[j].key
  }

  /** `data[k] = (data[k] || 0) + 1` on an object whose entries keep insertion order. */
  function Bump(t: seq<Entry>, k: string): (r: seq<Entry>)
    ensures Total(r) == Total(t) + 1
    ensures forall j :: Lookup(r, j) == Lookup(t, j) + (if j == k then 1 else 0)
    ensures |r| == |t| || (|r| == |t| + 1 && r[|t|] == Entry(k, 1))
    ensures forall i :: 0 <= i < |t| ==> r[i].key == t[i].key
    ensures |r| == |t| + 1 <==> forall i :: 0 <= i < |t| ==> t[i].key != k
  {
    if |t| == 0 then [Entry(k, 1)]
    else if t[0].key == k then [Entry(k, t[0].count + 1)] + t[1..]
    else [t[0]] + Bump(t[1..], k)
  }

  /** The counts `forEach` accumulates over a sequence of keys. */
  function Tally(keys: seq<string>): seq<Entry> {
    if |keys| == 0 then [] else Bump(Tally(keys[..|keys| - 1]), keys[|keys| - 1])
  }

  /** Every key's count is its number of occurrences. */
  lemma {:induction false} TallyCounts(keys: seq<string>, k: string)
    ensures Lookup(Tally(keys), k) == multiset(keys)[k]
  {
    if |keys| > 0 {
      var init := keys[..|keys| - 1];
      TallyCounts(init, k);
      assert keys == init + [keys[|keys| - 1]];
    }
  }

  /** The counts add up to the number of keys. */
  lemma {:induction false} TallyTotal(keys: seq<string>)
    ensures Total(Tally(keys)) == |keys|
  {
    if |keys| > 0 {
      TallyTotal(keys[..|keys| - 1]);
    }
  }

  /** A key gets at most one bar. */
  lemma {:induction false} TallyDistinct(keys: seq<string>)
    ensures DistinctKeys(Tally(keys))
  {
    if |keys| > 0 {
      var init := keys[..|keys| - 1];
      var k := keys[|keys| - 1];
      TallyDistinct(init);
    }
  }

  /** Department falls back to "Unknown" when empty. */
  function DepartmentKey(r: PassRecord): (k: string)
    ensures k != ""
    ensures r.department != "" ==> k == r.department
  {
    if r.department == "" then "Unknown" else r.department
  }

  function RouteTally(records: seq<PassRecord>): seq<Entry> {
    Tally(Map(records, (r: PassRecord) => r.busRoute))
  }

  function DepartmentTally(records: seq<PassRecord>): seq<Entry> {
    Tally(Map(records, DepartmentKey))
  }

  function PassTypeTally(records: seq<PassRecord>): seq<Entry> {
    Tally(Map(records, (r: PassRecord) => r.passType))
  }

  /** Each of the three charts accounts for every record exactly once. */
  lemma AnalyticsAccountForEveryRecord(records: seq<PassRecord>)
    ensures Total(RouteTally(records)) == |records|
    ensures Total(DepartmentTally(records)) == |records|
    ensures Total(PassTypeTally(records)) == |records|
    ensures Lookup(DepartmentTally(records), "") == 0
  {
    TallyTotal(Map(records, (r: PassRecord) => r.busRoute));
    TallyTotal(Map(records, DepartmentKey));
    TallyTotal(Map(records, (r: PassRecord) => r.passType));
    var keys := Map(records, DepartmentKey);
    TallyCounts(keys, "");
    assert "" !in multiset(keys);
  }

  // ---- local updates ----

  /** The toggle button: "inactive" becomes "active", anything else (no status included) "inactive". */
  function ToggledStatus(status: Option<string>): (s: string)
    ensures PassStore.IsStatusValue(s)
    ensures s == PassStore.Active <==> status == Some(PassStore.Inactive)
  {
    if status == Some(PassStore.Inactive) then PassStore.Active else PassStore.Inactive
  }

  /**
   * After a PUT, the reply is merged into the row with the matching id. A
   * successful reply is the whole updated record, which replaces the row; an
   * error reply carries only a message, so the row's fields stay.
   */
  function ApplyLocalUpdate(records: seq<PassRecord>, id: PassStore.Id,
                            reply: Result<PassRecord, PassStore.StoreError>): (r: seq<PassRecord>)
    ensures |r| == |records|
    ensures forall i :: 0 <= i < |records| && records[i].id != id ==> r[i] == records[i]
    ensures forall i :: 0 <= i < |records| && records[i].id == id ==>
      r[i] == (if reply.Success? then reply.value else records[i])
  {
    Map(records, (x: PassRecord) => if x.id == id && reply.Success? then reply.value else x)
  }

  predicate OtherThan(id: PassStore.Id, r: PassRecord) {
    r.id != id
  }

  function NotId(id: PassStore.Id): PassRecord -> bool {
    r => OtherThan(id, r)
  }

  /** After a DELETE request the row goes whatever the server answered. */
  function RemoveLocal(records: seq<PassRecord>, id: PassStore.Id): (r: seq<PassRecord>)
    ensures IsSubsequence(r, records)
    ensures forall i :: 0 <= i < |r| ==> r[i].id != id
    ensures forall i :: 0 <= i < |records| && records[i].id != id ==> records[i] in r
  {
    Filter(records, NotId(id))
  }

  /** Removing an id no row has leaves the table as it was. */
  lemma RemoveAbsentIsIdentity(records: seq<PassRecord>, id: PassStore.Id)
    requires forall i :: 0 <= i < |records| ==> records[i].id != id
    ensures RemoveLocal(records, id) == records
  {
    FilterAll(records, NotId(id));
  }
}

=== FILE: dates.dfy ===
/**
 * Calendar dates as JavaScript's `Date` exposes them (`getFullYear`,
 * zero-based `getMonth`, `getDate`) and the month arithmetic of
 * `setMonth(getMonth() + k)`, including its day roll-over: a day that the
 * target month does not have spills into the following month.
 * Every date is taken in one time zone; "now" is an instant given as a
 * date plus milliseconds since midnight.
 */
module Dates {

  /** `month` is zero-based, January = 0, as `getMonth` returns it. */
  datatype Date = Date(year: int, month: int, day: int)

  /** A moment in time: a date and the milliseconds elapsed since its midnight. */
  datatype Instant = Instant(date: Date, msOfDay: int)

  const MsPerDay: int := 86_400_000

  predicate IsLeapYear(y: int) {
    (y % 4 == 0 && y % 100 != 0) || y % 400 == 0
  }

  function DaysInMonth(y: int, m: int): (n: int)
    requires 0 <= m < 12
    ensures 28 <= n <= 31
    ensures n == 28 <==> m == 1 && !IsLeapYear(y)
  {
    if m == 1 then (if IsLeapYear(y) then 29 else 28)
    else if m == 3 || m == 5 || m == 8 || m == 10 then 30
    else 31
  }

  predicate ValidDate(d: Date) {
    0 <= d.month < 12 && 1 <= d.day <= DaysInMonth(d.year, d.month)
  }

  /** A date the calendar has: what a `Date` built from a date input or a stored field holds. */
  type Day = d: Date | ValidDate(d) witness Date(1970, 0, 1)

  predicate ValidInstant(t: Instant) {
    ValidDate(t.date) && 0 <= t.msOfDay < MsPerDay
  }

  /** Months counted from year 0: the order of (year, month) pairs. */
  function MonthIndex(d: Date): int {
    d.year * 12 + d.month
  }

  /** Strict calendar order of dates. */
  predicate Before(a: Date, b: Date) {
    a.year < b.year
    || (a.year == b.year && a.month < b.month)
    || (a.year == b.year && a.month == b.month && a.day < b.day)
  }

  /** `now <= end`, where `end` is the midnight that starts the date `end`. */
  predicate NotLaterThan(now: Instant, end: Date) {
    Before(now.date, end) || (now.date == end && now.msOfDay == 0)
  }

  /** The first day of the month with index `idx`. */
  function MonthStart(idx: int): (d: Date)
    ensures ValidDate(d) && MonthIndex(d) == idx && d.day == 1
  {
    Date(idx / 12, idx % 12, 1)
  }

  /**
   * `new Date(d).setMonth(d.getMonth() + k)`: the month moves on by `k`,
   * the day of the month is kept, and a day the target month lacks rolls
   * over into the next month (January 31 plus one month is March 3 in a
   * common year).
   */
  function AddMonths(d: Date, k: nat): (r: Date)
    requires ValidDate(d)
    ensures ValidDate(r)
    ensures MonthIndex(r) == MonthIndex(d) + k || (MonthIndex(r) == MonthIndex(d) + k + 1 && r.day <= 3)
    ensures MonthIndex(r) == MonthIndex(d) + k <==> r.day == d.day
    ensures var t := MonthStart(MonthIndex(d) + k);
      MonthIndex(r) == MonthIndex(d) + k <==> d.day <= DaysInMonth(t.year, t.month)
    ensures var t := MonthStart(MonthIndex(d) + k);
      MonthIndex(r) != MonthIndex(d) + k ==> r.day == d.day - DaysInMonth(t.year, t.month)
    ensures k > 0 ==> Before(d, r)
  {
    var target := MonthStart(MonthIndex(d) + k);
    var dim := DaysInMonth(target.year, target.month);
    if d.day <= dim then
      Date(target.year, target.month, d.day)
    else
      var next := MonthStart(MonthIndex(d) + k + 1);
      Date(next.year, next.month, d.day - dim)
  }

  /** Up to the 28th, adding months only moves the month: the day is kept. */
  lemma AddMonthsKeepsDay(d: Date, k: nat)
    requires ValidDate(d) && d.day <= 28
    ensures MonthIndex(AddMonths(d, k)) == MonthIndex(d) + k
    ensures AddMonths(d, k).day == d.day
  {
  }

  /** Up to the 28th, adding `a` months and then `b` months is adding `a + b`. */
  lemma AddMonthsCompose(d: Date, a: nat, b: nat)
    requires ValidDate(d) && d.day <= 28
    ensures AddMonths(AddMonths(d, a), b) == AddMonths(d, a + b)
  {
    var r1 := AddMonths(d, a);
    AddMonthsKeepsDay(d, a);
    AddMonthsKeepsDay(r1, b);
    AddMonthsKeepsDay(d, a + b);
    var x := AddMonths(r1, b);
    var y := AddMonths(d, a + b);
    assert MonthIndex(x) == MonthIndex(y);
    assert x.year == y.year && x.month == y.month by {
      MonthIndexInjective(x, y);
    }
  }

  lemma MonthIndexInjective(x: Date, y: Date)
    requires 0 <= x.month < 12 && 0 <= y.month < 12
    requires MonthIndex(x) == MonthIndex(y)
    ensures x.year == y.year && x.month == y.month
  {
  }

  /** The roll-over makes the month arithmetic non-monotone: a date issued one
      day later ends two days earlier. */
  lemma AddMonthsNotMonotone()
    ensures Before(Date(2025, 0, 31), Date(2025, 1, 1))
    ensures AddMonths(Date(2025, 0, 31), 1) == Date(2025, 2, 3)
    ensures AddMonths(Date(2025, 1, 1), 1) == Date(2025, 2, 1)
    ensures Before(AddMonths(Date(2025, 1, 1), 1), AddMonths(Date(2025, 0, 31), 1))
  {
  }
}

=== FILE: lifecycle.dfy ===
/**
 * How the pieces meet: a form the client accepts reaches the store, the
 * dashboard's status toggle goes through the update handler and back into
 * the table, the dashboard and the verifier judge the same record by
 * different rules, and deleting a route leaves the passes that name it.
 */
module Lifecycle {
  import opened Wrappers
  import opened Text
  import opened Dates
  import PassForm
  import PassStore
  import RouteStore
  import Dashboard
  import Verification

  // ---- form to store ----

  /** A student tab that passes its check fills every required text field of the schema. */
  lemma ValidStudentFillsRequired(t: PassForm.StudentTab)
    requires PassForm.IsStudentValid(t)
    ensures t.date.Some? && t.academicYear != "" && t.studentId != "" && t.studentName != ""
    ensures t.mobileNo != "" && t.emailId != "" && t.department != "" && t.classSelect != ""
    ensures t.semester != ""
  {
    if t.studentId == "" {
      TrimEmptyIff(t.studentId);
    }
  }

  /**
   * A form whose two tabs pass their checks, with a course chosen, is
   * stored by the create handler under a fresh id, active, with amounts that
   * add up: what is pending plus what was received is the pass amount.
   */
  lemma AcceptedFormIsStored(f: PassForm.Form, s: PassStore.Store, id: PassStore.Id, now: int)
    requires PassForm.IsStudentValid(f.student) && PassForm.ValidateBus(f.bus) == {}
    requires f.formType != "" && id !in s.passes
    ensures PassForm.Submit(f).Some?
    ensures var r := PassStore.CreatePass(s, id, now, PassForm.Submit(f).value);
      && r.Success?
      && r.value.record.status == Some(PassStore.Active)
      && r.value.record.pendingAmount.Some?
      && r.value.record.pendingAmount.value + r.value.record.receivedAmount == r.value.record.passAmount
      && r.value.record.busRoute == f.bus.busRoute && r.value.record.routeTo == f.bus.routeTo
  {
    ValidStudentFillsRequired(f.student);
    var b := PassForm.Submit(f).value;
    assert f.bus.passType.Name() != "";
    assert PassStore.ValidForCreate(b);
  }

  /**
   * Submission does not re-check the student tab: given a form whose bus tab
   * passes, the submit handler builds a payload even with an empty name, and
   * the server rejects it. Only the tab gating keeps such a form from
   * reaching the handler.
   */
  lemma InvalidStudentStillSubmitted(f: PassForm.Form, s: PassStore.Store, id: PassStore.Id, now: int)
    requires PassForm.ValidateBus(f.bus) == {} && f.student.studentName == ""
    ensures !PassForm.IsStudentValid(f.student)
    ensures PassForm.Submit(f).Some?
    ensures PassStore.CreatePass(s, id, now, PassForm.Submit(f).value) == Failure(PassStore.ValidationError)
  {
  }

  /**
   * The server checks only that each required field is present: a form
   * whose student tab fails only on the mobile number and the email, with a
   * passing bus tab, is built into a payload and stored as it is.
   */
  lemma MalformedContactStored(f: PassForm.Form, s: PassStore.Store, id: PassStore.Id, now: int)
    requires PassForm.ValidateBus(f.bus) == {}
    requires f.student.mobileNo == "123" && f.student.emailId == "x"
    requires f.student.date.Some? && f.student.academicYear != "" && f.student.studentId != ""
    requires f.student.studentName != "" && f.student.department != "" && f.student.classSelect != ""
    requires f.student.semester != "" && f.formType != "" && id !in s.passes
    ensures !PassForm.IsStudentValid(f.student)
    ensures PassForm.Submit(f).Some?
    ensures var r := PassStore.CreatePass(s, id, now, PassForm.Submit(f).value);
      r.Success? && r.value.record.mobileNo == "123" && r.value.record.emailId == "x"
  {
    assert !PassForm.MobileOk(f.student.mobileNo);
    assert f.bus.passType.Name() != "";
  }

  // ---- status toggle ----

  /**
   * The toggle button end to end: the PUT stores the toggled status and
   * returns the record, and merging the reply into the table changes that
   * row's status and nothing else.
   */
  lemma ToggleRoundTrip(s: PassStore.Store, rows: seq<PassStore.PassRecord>, id: PassStore.Id, now: int)
    requires id in s.passes
    ensures var status := Dashboard.ToggledStatus(s.passes[id].status);
      var reply := PassStore.UpdatePass(s, id, now, PassStore.EmptyBody.(status := Some(status)));
      var table := Dashboard.ApplyLocalUpdate(rows, id, ResultRecord(reply));
      && reply.Success?
      && reply.value.record.status == Some(status)
      && reply.value.record == s.passes[id].(status := Some(status), updatedAt := now)
      && |table| == |rows|
      && (forall i :: 0 <= i < |rows| && rows[i].id == id ==> table[i].status == Some(status))
      && (forall i :: 0 <= i < |rows| && rows[i].id != id ==> table[i] == rows[i])
  {
    var status := Dashboard.ToggledStatus(s.passes[id].status);
    var b := PassStore.EmptyBody.(status := Some(status));
    var reply := PassStore.UpdatePass(s, id, now, b);
    assert reply.value.record == PassStore.Merge(s.passes[id], b, now);
  }

  /** The record a handler reply carries, or its error. */
  function ResultRecord(r: Result<PassStore.Saved, PassStore.StoreError>): (x: Result<PassStore.PassRecord, PassStore.StoreError>)
    ensures r.Success? <==> x.Success?
    ensures r.Success? ==> x.value == r.value.record
  {
    match r
    case Success(saved) => Success(saved.record)
    case Failure(e) => Failure(e)
  }

  /**
   * Toggling twice restores a status from the schema's enum; a record with
   * no status comes back "active".
   */
  lemma ToggleTwice(status: Option<string>)
    ensures status.Some? && PassStore.IsStatusValue(status.value) ==>
      Some(Dashboard.ToggledStatus(Some(Dashboard.ToggledStatus(status)))) == status
    ensures status.None? ==> Dashboard.ToggledStatus(Some(Dashboard.ToggledStatus(status))) == PassStore.Active
  {
  }

  // ---- dashboard and verifier ----

  /**
   * Within the validity window and with a status from the enum, the
   * dashboard's "active" and the verifier's "valid" agree.
   */
  lemma DashboardAgreesWithVerifier(now: Instant, r: PassStore.PassRecord)
    requires NotLaterThan(now, Dashboard.ValidUntil(r))
    requires r.status.Some? && PassStore.IsStatusValue(r.status.value)
    ensures Dashboard.IsActivePass(now, r) <==> Verification.Judge(r).Valid?
  {
  }

  /** A record with no status is active on the dashboard and inactive at the gate. */
  lemma MissingStatusDisagrees(now: Instant, r: PassStore.PassRecord)
    requires NotLaterThan(now, Dashboard.ValidUntil(r)) && r.status.None?
    ensures Dashboard.IsActivePass(now, r)
    ensures Verification.Judge(r).Inactive?
  {
  }

  /** After its window closes, an active pass is off the dashboard's count but still valid at the gate. */
  lemma ExpiredPassStillVerifies(now: Instant, r: PassStore.PassRecord)
    requires !NotLaterThan(now, Dashboard.ValidUntil(r)) && r.status == Some(PassStore.Active)
    ensures !Dashboard.IsActivePass(now, r)
    ensures Verification.Judge(r).Valid?
    ensures Verification.Respond(Verification.Judge(r)).valid
  {
  }

  /**
   * A semester pass issued on 10 January 2025 runs until 10 July 2025: on
   * 1 August 2025 the dashboard counts it inactive, while the verifier
   * still answers that it is valid.
   */
  lemma SemesterPassExample(r: PassStore.PassRecord)
    requires r.date == Date(2025, 0, 10) && r.passType == "semester" && r.status == Some(PassStore.Active)
    ensures Dashboard.ValidUntil(r) == Date(2025, 6, 10)
    ensures !Dashboard.IsActivePass(Instant(Date(2025, 7, 1), 0), r)
    ensures Verification.Respond(Verification.Judge(r)).valid
  {
    AddMonthsKeepsDay(r.date, 6);
  }

  // ---- route deletion ----

  datatype Db = Db(passes: PassStore.Store, routes: RouteStore.Store)

  /** The route delete handler, which touches only the route collection. */
  function DeleteRouteInDb(db: Db, id: RouteStore.Id): (r: Result<Db, RouteStore.RouteError>)
    ensures r.Failure? <==> id !in db.routes.routes
    ensures r.Success? ==> r.value.passes == db.passes
    ensures r.Success? ==> r.value.routes.routes.Keys == db.routes.routes.Keys - {id}
  {
    match RouteStore.DeleteRoute(db.routes, id)
    case Failure(e) => Failure(e)
    case Success(routes) => Success(Db(db.passes, routes))
  }

  /**
   * Deleting a route leaves the passes on it in place, now naming a route
   * that no longer exists; the dashboard still lists them and their riders
   * are no longer counted under any route row.
   */
  lemma DeletedRouteOrphansPasses(db: Db, id: RouteStore.Id, pid: PassStore.Id)
    requires RouteStore.Invariant(db.routes) && id in db.routes.routes
    requires pid in db.passes.passes && db.passes.passes[pid].busRoute == db.routes.routes[id].name
    ensures var r := DeleteRouteInDb(db, id);
      && r.Success?
      && pid in r.value.passes.passes
      && forall k :: k in r.value.routes.routes ==>
           r.value.routes.routes[k].name != r.value.passes.passes[pid].busRoute
  {
    var r := DeleteRouteInDb(db, id);
    forall k | k in r.value.routes.routes
      ensures r.value.routes.routes[k].name != db.routes.routes[id].name
    {
      assert k != id;
      assert r.value.routes.routes[k] == db.routes.routes[k];
    }
  }
}

=== FILE: pass_form.dfy ===
/**
 * The derivations of the pass application form
 * (src/components/forms/BusPassForm.tsx): the fare effect, the pending
 * amount, the academic year derived from the date, the two tab validators,
 * the option lists, and the payload the submit handler posts.
 */
module PassForm {
  import opened Wrappers
  import opened Text
  import opened Seqs
  import opened Dates
  import opened Catalogue
  import PassStore

  /** A JavaScript number as the form holds it: the received amount comes from
      `Number(input)`, which is NaN for unreadable input. */
  datatype JsNumber = NaN | Num(value: int) {
    /** `x || 0`: NaN is falsy. */
    function OrZero(): int {
      if NaN? then 0 else value
    }
  }

  /** The first tab. The date input yields either a date or the empty string (`None`). */
  datatype StudentTab = StudentTab(
    date: Option<Day>,
    academicYear: string,
    studentId: string,
    studentName: string,
    mobileNo: string,
    emailId: string,
    department: string,
    classSelect: string,
    semester: string)

  /** The second tab. */
  datatype BusTab = BusTab(
    busRoute: string,
    routeTo: string,
    passType: PassKind,
    passAmount: int,
    receivedAmount: JsNumber)

  datatype Form = Form(formType: string, student: StudentTab, bus: BusTab)

  // ---- fare and pending amount ----

  /**
   * The fare effect, run whenever the route, the destination or the pass type
   * changes: no route or no destination clears the amount to 0; a known
   * route and stop set the catalogue price; an unknown route or stop leaves
   * the previous amount.
   */
  function FareEffect(routes: seq<BusRoute>, b: BusTab): (r: int)
    ensures b.busRoute == "" || b.routeTo == "" ==> r == 0
    ensures (b.busRoute != "" && b.routeTo != "" && LookupFare(routes, b.busRoute, b.routeTo, b.passType).None?)
      ==> r == b.passAmount
    ensures (b.busRoute != "" && b.routeTo != "" && LookupFare(routes, b.busRoute, b.routeTo, b.passType).Some?)
      ==> (r == FindStop(FindRoute(routes, b.busRoute).value.stops, b.routeTo).value.semester
           || r == FindStop(FindRoute(routes, b.busRoute).value.stops, b.routeTo).value.yearly)
  {
    if b.busRoute == "" || b.routeTo == "" then 0
    else match LookupFare(routes, b.busRoute, b.routeTo, b.passType)
      case None => b.passAmount
      case Some(fare) => fare
  }

  /** Re-running the effect with nothing changed leaves the amount where it is. */
  lemma FareEffectIdempotent(routes: seq<BusRoute>, b: BusTab)
    ensures FareEffect(routes, b.(passAmount := FareEffect(routes, b))) == FareEffect(routes, b)
  {
  }

  /** A semester pass is charged the stop's semester price, a yearly pass its yearly price. */
  lemma FareEffectPicksDuration(routes: seq<BusRoute>, b: BusTab, stop: Stop)
    requires b.busRoute != "" && b.routeTo != ""
    requires FindRoute(routes, b.busRoute).Some?
    requires FindStop(FindRoute(routes, b.busRoute).value.stops, b.routeTo) == Some(stop)
    ensures b.passType == SemesterPass ==> FareEffect(routes, b) == stop.semester
    ensures b.passType == YearlyPass ==> FareEffect(routes, b) == stop.yearly
  {
  }

  /** The displayed pending amount: `Math.max(0, (passAmount || 0) - (receivedAmount || 0))`. */
  function PendingAmount(b: BusTab): (r: int)
    ensures r >= 0
    ensures r >= b.passAmount - b.receivedAmount.OrZero()
    ensures r == 0 || r == b.passAmount - b.receivedAmount.OrZero()
  {
    var diff := b.passAmount - b.receivedAmount.OrZero();
    if diff > 0 then diff else 0
  }

  /** The pending amount in the payload: `Math.max(0, passAmount - receivedAmount)`,
      which is NaN when the received amount is. */
  function PayloadPending(b: BusTab): (r: JsNumber)
    ensures r.NaN? <==> b.receivedAmount.NaN?
    ensures r.Num? ==> r.value == PendingAmount(b)
  {
    match b.receivedAmount
    case NaN => NaN
    case Num(v) => Num(if b.passAmount - v > 0 then b.passAmount - v else 0)
  }

  // ---- events of the bus tab ----

  /** What the user can do on the bus tab; each change of route, destination
      or pass type re-runs the fare effect. */
  datatype BusEvent =
    | ChooseRoute(name: string)
    | ChooseDestination(stop: string)
    | ChoosePassType(kind: PassKind)
    | EnterReceived(amount: JsNumber)
    | ResetBus

  function Step(routes: seq<BusRoute>, b: BusTab, e: BusEvent): BusTab {
    match e
    case ChooseRoute(name) =>
      var b1 := b.(busRoute := name, routeTo := "");
      b1.(passAmount := FareEffect(routes, b1))
    case ChooseDestination(stop) =>
      var b1 := b.(routeTo := stop);
      b1.(passAmount := FareEffect(routes, b1))
    case ChoosePassType(kind) =>
      var b1 := b.(passType := kind);
      b1.(passAmount := FareEffect(routes, b1))
    case EnterReceived(amount) => b.(receivedAmount := amount)
    case ResetBus => BusTab("", "", SemesterPass, 0, Num(0))
  }

  /** The pass amount is 0 or a price the catalogue lists. */
  ghost predicate AmountFromCatalogue(routes: seq<BusRoute>, b: BusTab) {
    b.passAmount == 0 || ListedFare(routes, b.passAmount)
  }

  /** Every event keeps the pass amount a catalogue price (or 0): the user cannot type it. */
  lemma StepKeepsAmountFromCatalogue(routes: seq<BusRoute>, b: BusTab, e: BusEvent)
    requires AmountFromCatalogue(routes, b)
    ensures AmountFromCatalogue(routes, Step(routes, b, e))
  {
  }

  /** Choosing a route clears the destination, and with it the amount. */
  lemma ChooseRouteClearsAmount(routes: seq<BusRoute>, b: BusTab, name: string)
    ensures Step(routes, b, ChooseRoute(name)).routeTo == ""
    ensures Step(routes, b, ChooseRoute(name)).passAmount == 0
  {
  }

  // ---- academic year ----

  /** `${y}-${y + 1}`. */
  function YearSpanText(y: int): string {
    IntToString(y) + "-" + IntToString(y + 1)
  }

  /**
   * The academic-year effect: a date in June (month 5) or later belongs to
   * the year starting that calendar year, an earlier one to the year before.
   * An empty date is an invalid `Date`, whose NaN fields print as "NaN-NaN".
   */
  function AcademicYearOf(date: Option<Date>): (r: string)
    ensures r != ""
    ensures date.None? ==> r == "NaN-NaN"
  {
    match date
    case None => "NaN-NaN"
    case Some(d) => YearSpanText(if d.month >= 5 then d.year else d.year - 1)
  }

  predicate IsDash(c: char) { c == '-' }

  /** Reads "a-b" back into its two years. */
  function ParseYearSpan(s: string): Option<(nat, nat)> {
    match FirstIndex(s, IsDash)
    case None => None
    case Some(k) =>
      match (ParseNat(s[..k]), ParseNat(s[k + 1..]))
      case (Some(a), Some(b)) => Some((a, b))
      case _ => None
  }

  lemma {:induction false} YearSpanRoundTrip(y: nat)
    ensures ParseYearSpan(YearSpanText(y)) == Some((y, y + 1))
  {
    var a := NatToString(y);
    var b := NatToString(y + 1);
    var s := YearSpanText(y);
    assert s == a + "-" + b;
    assert FirstIndex(s, IsDash) == Some(|a|) by {
      assert s[|a|] == '-';
      forall j | 0 <= j < |a| ensures s[j] != '-' {
        assert s[j] == a[j];
        assert IsDigit(a[j]);
      }
    }
    assert s[..|a|] == a;
    assert s[|a| + 1..] == b;
    ParseNatToString(y);
    ParseNatToString(y + 1);
  }

  /**
   * June through December give "Y-(Y+1)", January through May "(Y-1)-Y";
   * either way the second year is the first plus one.
   */
  lemma AcademicYearCutoff(d: Date)
    requires d.year >= 1
    ensures d.month >= 5 ==> ParseYearSpan(AcademicYearOf(Some(d))) == Some((d.year, d.year + 1))
    ensures d.month < 5 ==> ParseYearSpan(AcademicYearOf(Some(d))) == Some((d.year - 1, d.year))
  {
    if d.month >= 5 {
      YearSpanRoundTrip(d.year);
    } else {
      YearSpanRoundTrip(d.year - 1);
    }
  }

  /** The academic-year choices: seven spans starting the year before `currentYear`. */
  function AcademicYearOptions(currentYear: int): (r: seq<string>)
    ensures |r| == 7
  {
    seq(7, i requires 0 <= i < 7 => YearSpanText(currentYear - 1 + i))
  }

  /** The options run in ascending order, each span one year long. */
  lemma AcademicYearOptionsAscending(currentYear: int)
    requires currentYear >= 1
    ensures forall i :: 0 <= i < 7 ==>
      ParseYearSpan(AcademicYearOptions(currentYear)[i]) == Some((currentYear - 1 + i, currentYear + i))
  {
    forall i | 0 <= i < 7
      ensures ParseYearSpan(AcademicYearOptions(currentYear)[i]) == Some((currentYear - 1 + i, currentYear + i))
    {
      YearSpanRoundTrip(currentYear - 1 + i);
    }
  }

  /** A date in the current year derives an academic year the dropdown offers. */
  lemma AcademicYearOffered(d: Date, currentYear: int)
    requires d.year == currentYear
    ensures AcademicYearOf(Some(d)) in AcademicYearOptions(currentYear)
  {
    var opts := AcademicYearOptions(currentYear);
    if d.month >= 5 {
      assert opts[1] == AcademicYearOf(Some(d));
    } else {
      assert opts[0] == AcademicYearOf(Some(d));
    }
  }

  /** The class choices "1" .. "maxYear". */
  function YearOptions(maxYear: nat): (r: seq<string>)
    ensures |r| == maxYear
    ensures forall i :: 0 <= i < maxYear ==> ParseNat(r[i]) == Some(i + 1)
    ensures forall i :: 0 <= i < maxYear ==> |r[i]| > 0 && r[i][0] != '0'
  {
    var r := seq(maxYear, i requires 0 <= i < maxYear => NatToString(i + 1));
    assert forall i :: 0 <= i < maxYear ==> ParseNat(r[i]) == Some(i + 1) by {
      forall i | 0 <= i < maxYear ensures ParseNat(r[i]) == Some(i + 1) {
        ParseNatToString(i + 1);
      }
    }
    r
  }

  /** The destination choices: the stop names of the selected route, in order. */
  function ToOptions(routes: seq<BusRoute>, busRoute: string): (r: seq<string>)
    ensures busRoute == "" || FindRoute(routes, busRoute).None? ==> r == []
    ensures busRoute != "" && FindRoute(routes, busRoute).Some? ==>
      var stops := FindRoute(routes, busRoute).value.stops;
      |r| == |stops| && forall i :: 0 <= i < |stops| ==> r[i] == stops[i].name
  {
    if busRoute == "" then []
    else match FindRoute(routes, busRoute)
      case None => []
      case Some(route) => seq(|route.stops|, i requires 0 <= i < |route.stops| => route.stops[i].name)
  }

  /** Any destination the form offers has a fare for either duration. */
  lemma OfferedDestinationHasFare(routes: seq<BusRoute>, busRoute: string, stop: string, kind: PassKind)
    requires stop in ToOptions(routes, busRoute)
    ensures LookupFare(routes, busRoute, stop, kind).Some?
  {
    var stops := FindRoute(routes, busRoute).value.stops;
    var i :| 0 <= i < |stops| && ToOptions(routes, busRoute)[i] == stop;
    assert stops[i].name == stop;
  }

  // ---- student tab validation ----

  /** `/^[A-Za-z\s]{2,}$/`. */
  predicate NameOk(s: string) {
    |s| >= 2 && forall i :: 0 <= i < |s| ==> IsAsciiLetter(s[i]) || IsJsSpace(s[i])
  }

  /** `/^\d{10}$/`. */
  predicate MobileOk(s: string) {
    |s| == 10 && AllDigits(s)
  }

  predicate IsAt(c: char) { c == '@' }

  /** No `\s` and no '@': the class `[^\s@]`. */
  predicate Clean(s: string) {
    forall i :: 0 <= i < |s| ==> !IsJsSpace(s[i]) && s[i] != '@'
  }

  /**
   * The email check, read left to right: an '@' with a non-empty clean local
   * part before it, and a clean domain after it with a '.' neither first nor
   * last.
   */
  predicate EmailOk(s: string) {
    match FirstIndex(s, IsAt)
    case None => false
    case Some(at) =>
      var domain := s[at + 1..];
      at > 0 && Clean(s[..at]) && Clean(domain) && |domain| >= 3 && '.' in domain[1..|domain| - 1]
  }

  /** What `/^([^\s@]+)@([^\s@]+)\.[^\s@]+$/` matches: clean a, b, c in "a@b.c". */
  ghost predicate EmailPattern(s: string) {
    exists i, j :: 0 < i && i + 1 < j && j + 1 < |s| && s[i] == '@' && s[j] == '.'
      && Clean(s[..i]) && Clean(s[i + 1..j]) && Clean(s[j + 1..])
  }

  lemma EmailOkToPattern(s: string)
    requires EmailOk(s)
    ensures EmailPattern(s)
  {
    var at := FirstIndex(s, IsAt).value;
    var domain := s[at + 1..];
    var inner := domain[1..|domain| - 1];
    var m :| 0 <= m < |inner| && inner[m] == '.';
    var j := at + 2 + m;
    assert s[j] == '.';
    assert s[..at] == s[..at];
    assert s[at + 1..j] == domain[..m + 1];
    assert s[j + 1..] == domain[m + 2..];
    assert Clean(s[at + 1..j]);
    assert Clean(s[j + 1..]);
  }

  lemma PatternToEmailOk(s: string)
    requires EmailPattern(s)
    ensures EmailOk(s)
  {
    var i, j :| 0 < i && i + 1 < j && j + 1 < |s| && s[i] == '@' && s[j] == '.'
      && Clean(s[..i]) && Clean(s[i + 1..j]) && Clean(s[j + 1..]);
    MatchAtIsEmailOk(s, i, j);
  }

  /** The first '@' is the one the match splits at. */
  lemma FirstAtOfMatch(s: string, i: nat)
    requires i < |s| && s[i] == '@' && Clean(s[..i])
    ensures FirstIndex(s, IsAt) == Some(i)
  {
    forall k | 0 <= k < i ensures !IsAt(s[k]) {
      assert s[k] == s[..i][k];
    }
  }

  lemma MatchAtIsEmailOk(s: string, i: nat, j: nat)
    requires 0 < i && i + 1 < j && j + 1 < |s| && s[i] == '@' && s[j] == '.'
    requires Clean(s[..i]) && Clean(s[i + 1..j]) && Clean(s[j + 1..])
    ensures EmailOk(s)
  {
    FirstAtOfMatch(s, i);
    var domain := s[i + 1..];
    CleanJoin(s[i + 1..j], s[j + 1..]);
    assert domain == s[i + 1..j] + ['.'] + s[j + 1..];
    var inner := domain[1..|domain| - 1];
    assert inner[j - i - 2] == '.';
    assert '.' in inner;
  }

  /** Joining two clean strings around a '.' gives a clean string. */
  lemma CleanJoin(a: string, b: string)
    requires Clean(a) && Clean(b)
    ensures Clean(a + ['.'] + b)
  {
    var s := a + ['.'] + b;
    forall k | 0 <= k < |s| ensures !IsJsSpace(s[k]) && s[k] != '@' {
      if k < |a| {
        assert s[k] == a[k];
      } else if k > |a| {
        assert s[k] == b[k - |a| - 1];
      }
    }
  }

  /** The left-to-right check accepts exactly what the regular expression matches. */
  lemma EmailOkIff(s: string)
    ensures EmailOk(s) <==> EmailPattern(s)
  {
    if EmailOk(s) {
      EmailOkToPattern(s);
    }
    if EmailPattern(s) {
      PatternToEmailOk(s);
    }
  }

  /** The fields of the student tab that can carry an error. */
  datatype StudentField =
    | DateField | AcademicYearField | StudentIdField | StudentNameField | MobileNoField
    | EmailIdField | DepartmentField | ClassField | SemesterField

  const AllStudentFields: set<StudentField> := {
    DateField, AcademicYearField, StudentIdField, StudentNameField, MobileNoField,
    EmailIdField, DepartmentField, ClassField, SemesterField }

  /** The check `validateStudent` runs for one field, true when the field is flagged. */
  predicate Flagged(t: StudentTab, f: StudentField) {
    match f
    case DateField => t.date.None?
    case AcademicYearField => t.academicYear == ""
    case StudentIdField => Blank(t.studentId)
    case StudentNameField => !NameOk(t.studentName)
    case MobileNoField => !MobileOk(t.mobileNo)
    case EmailIdField => !EmailOk(t.emailId)
    case DepartmentField => t.department == ""
    case ClassField => t.classSelect == ""
    case SemesterField => t.semester == ""
  }

  /**
   * `validateStudent`: the set of fields it flags; the tab passes when the set
   * is empty.
   */
  function ValidateStudent(t: StudentTab): (errors: set<StudentField>)
    ensures errors <= AllStudentFields
    ensures DateField in errors <==> t.date.None?
    ensures AcademicYearField in errors <==> t.academicYear == ""
    ensures StudentIdField in errors <==> Blank(t.studentId)
    ensures StudentNameField in errors <==> !NameOk(t.studentName)
    ensures MobileNoField in errors <==> !(|t.mobileNo| == 10 && AllDigits(t.mobileNo))
    ensures EmailIdField in errors <==> !EmailOk(t.emailId)
    ensures DepartmentField in errors <==> t.department == ""
    ensures ClassField in errors <==> t.classSelect == ""
    ensures SemesterField in errors <==> t.semester == ""
  {
    set f | f in AllStudentFields && Flagged(t, f)
  }

  /**
   * The same three flags in the source's own terms: the student id is
   * flagged when it trims to nothing, the email when the regular expression
   * does not match it.
   */
  lemma ValidateStudentFlags(t: StudentTab)
    ensures StudentIdField in ValidateStudent(t) <==> Trim(t.studentId) == ""
    ensures EmailIdField in ValidateStudent(t) <==> !EmailPattern(t.emailId)
  {
    TrimEmptyIff(t.studentId);
    EmailOkIff(t.emailId);
  }

  /** `isStudentValid`, the memo that enables the bus tab: a chain of early returns. */
  predicate IsStudentValid(t: StudentTab) {
    if t.date.None? then false
    else if t.academicYear == "" then false
    else if Blank(t.studentId) then false
    else if !NameOk(t.studentName) then false
    else if !MobileOk(t.mobileNo) then false
    else if !EmailOk(t.emailId) then false
    else if t.department == "" then false
    else if t.classSelect == "" then false
    else if t.semester == "" then false
    else true
  }

  /** No field is flagged. */
  predicate NoneFlagged(t: StudentTab) {
    && !Flagged(t, DateField) && !Flagged(t, AcademicYearField) && !Flagged(t, StudentIdField)
    && !Flagged(t, StudentNameField) && !Flagged(t, MobileNoField) && !Flagged(t, EmailIdField)
    && !Flagged(t, DepartmentField) && !Flagged(t, ClassField) && !Flagged(t, SemesterField)
  }

  lemma ValidateStudentEmptyIff(t: StudentTab)
    ensures ValidateStudent(t) == {} <==> NoneFlagged(t)
  {
    var e := ValidateStudent(t);
    assert forall f :: f in e <==> f in AllStudentFields && Flagged(t, f);
    if NoneFlagged(t) {
      forall f | f in AllStudentFields ensures !Flagged(t, f) {
      }
    }
  }

  /** The chain of early returns fails exactly when some field is flagged. */
  lemma ChainIsNoneFlagged(t: StudentTab)
    ensures IsStudentValid(t) <==> NoneFlagged(t)
  {
  }

  /** The memo and the validator accept exactly the same tabs. */
  lemma StudentValidIff(t: StudentTab)
    ensures IsStudentValid(t) <==> ValidateStudent(t) == {}
  {
    ChainIsNoneFlagged(t);
    ValidateStudentEmptyIff(t);
  }

  /** A name of two spaces passes the name check: the class admits whitespace. */
  lemma BlankNameAccepted()
    ensures NameOk("  ")
  {
  }

  // ---- bus tab validation and submission ----

  datatype BusField = RouteField | AmountField | ReceivedField

  /** `received >= 0`, false for NaN. */
  predicate NonNegative(n: JsNumber) {
    n.Num? && n.value >= 0
  }

  /** `passAmount - received < 0`, false for NaN. */
  predicate Overpaid(pass: int, n: JsNumber) {
    n.Num? && pass - n.value < 0
  }

  /**
   * `validateBus`: a missing route or destination, a received amount that is
   * NaN or negative, and a received amount above the pass amount are each
   * flagged.
   */
  function ValidateBus(b: BusTab): (errors: set<BusField>)
    ensures errors == {} <==>
      b.busRoute != "" && b.routeTo != "" && b.receivedAmount.Num?
      && 0 <= b.receivedAmount.value <= b.passAmount
  {
    var e := (if b.busRoute == "" || b.routeTo == "" then {RouteField} else {})
      + (if !NonNegative(b.receivedAmount) then {AmountField} else {})
      + (if Overpaid(b.passAmount, b.receivedAmount) then {ReceivedField} else {});
    assert b.busRoute == "" || b.routeTo == "" ==> RouteField in e;
    assert !NonNegative(b.receivedAmount) ==> AmountField in e;
    assert Overpaid(b.passAmount, b.receivedAmount) ==> ReceivedField in e;
    e
  }

  /**
   * `handleSubmit`: nothing is sent unless `validateBus` passes (the student
   * tab is not re-validated here); the payload carries the form's fields and
   * a pending amount that, with the received amount, makes up the pass amount.
   */
  function Submit(f: Form): (r: Option<PassStore.PassBody>)
    ensures r.Some? <==> ValidateBus(f.bus) == {}
    ensures r.Some? ==> r.value.passAmount == Some(f.bus.passAmount)
    ensures r.Some? ==> r.value.receivedAmount.Some? && r.value.pendingAmount == Some(PendingAmount(f.bus))
    ensures r.Some? ==> (r.value.pendingAmount.value >= 0
      && r.value.pendingAmount.value + r.value.receivedAmount.value == r.value.passAmount.value)
    ensures r.Some? ==> r.value.status.None? && r.value.passType == Some(f.bus.passType.Name())
    ensures r.Some? ==>
      && r.value.formType == Some(f.formType) && r.value.date == f.student.date
      && r.value.academicYear == Some(f.student.academicYear)
      && r.value.studentId == Some(f.student.studentId) && r.value.studentName == Some(f.student.studentName)
      && r.value.mobileNo == Some(f.student.mobileNo) && r.value.emailId == Some(f.student.emailId)
      && r.value.department == Some(f.student.department) && r.value.classYear == Some(f.student.classSelect)
      && r.value.semester == Some(f.student.semester)
    ensures r.Some? ==> r.value.busRoute == Some(f.bus.busRoute) && r.value.routeTo == Some(f.bus.routeTo)
  {
    if ValidateBus(f.bus) != {} then None
    else
      var s := f.student;
      var b := f.bus;
      Some(PassStore.PassBody(
        Some(f.formType), s.date, Some(s.academicYear), Some(s.studentId), Some(s.studentName),
        Some(s.mobileNo), Some(s.emailId), Some(s.department), Some(s.classSelect), Some(s.semester),
        Some(b.busRoute), Some(b.routeTo), Some(b.passType.Name()), Some(b.passAmount),
        Some(b.receivedAmount.value), Some(PayloadPending(b).value), None))
  }
}

=== FILE: pass_store.dfy ===
/**
 * The bus-pass collection (backend/models/BusPass.js) and its four HTTP
 * handlers (backend/routes/busPassRoutes.js). The store is a map from record
 * id to record; the id and the clock reading of a request are parameters.
 * Amounts are stored exactly as the client sent them: nothing here
 * recomputes `passAmount` or `pendingAmount`.
 */
module PassStore {
  import opened Wrappers
  import opened Dates

  type Id = string

  /**
   * A stored application. `pendingAmount` and `status` are optional because
   * documents read back from the collection may lack them; every record this
   * module creates has both.
   */
  datatype PassRecord = PassRecord(
    id: Id,
    formType: string,
    date: Day,
    academicYear: string,
    studentId: string,
    studentName: string,
    mobileNo: string,
    emailId: string,
    department: string,
    classYear: string,
    semester: string,
    busRoute: string,
    routeTo: string,
    passType: string,
    passAmount: int,
    receivedAmount: int,
    pendingAmount: Option<int>,
    status: Option<string>,
    createdAt: int,
    updatedAt: int)

  /** A request body: every schema field, each possibly absent. */
  datatype PassBody = PassBody(
    formType: Option<string>,
    date: Option<Day>,
    academicYear: Option<string>,
    studentId: Option<string>,
    studentName: Option<string>,
    mobileNo: Option<string>,
    emailId: Option<string>,
    department: Option<string>,
    classYear: Option<string>,
    semester: Option<string>,
    busRoute: Option<string>,
    routeTo: Option<string>,
    passType: Option<string>,
    passAmount: Option<int>,
    receivedAmount: Option<int>,
    pendingAmount: Option<int>,
    status: Option<string>)

  /** A body that sets nothing. */
  const EmptyBody := PassBody(None, None, None, None, None, None, None, None, None,
                              None, None, None, None, None, None, None, None)

  const Active := "active"
  const Inactive := "inactive"

  /** The values the schema's `status` enum admits. */
  predicate IsStatusValue(s: string) {
    s == Active || s == Inactive
  }

  datatype Store = Store(passes: map<Id, PassRecord>)

  /** Every record is filed under its own id. */
  predicate WellFormed(s: Store) {
    forall k :: k in s.passes ==> s.passes[k].id == k
  }

  datatype StoreError = ValidationError | DuplicateKey | NotFound

  /** The HTTP status each handler answers a failure with. */
  function HttpStatus(e: StoreError): int {
    match e
    case NotFound => 404
    case _ => 500
  }

  /** A required String path: present and not the empty string. */
  predicate RequiredText(o: Option<string>) {
    o.Some? && o.value != ""
  }

  /** What saving a new document checks: the required fields and the status enum. */
  predicate ValidForCreate(b: PassBody) {
    && RequiredText(b.formType) && b.date.Some? && RequiredText(b.academicYear)
    && RequiredText(b.studentId) && RequiredText(b.studentName) && RequiredText(b.mobileNo)
    && RequiredText(b.emailId) && RequiredText(b.department) && RequiredText(b.classYear)
    && RequiredText(b.semester) && RequiredText(b.busRoute) && RequiredText(b.routeTo)
    && RequiredText(b.passType)
    && b.passAmount.Some? && b.receivedAmount.Some? && b.pendingAmount.Some?
    && (b.status.None? || IsStatusValue(b.status.value))
  }

  /** Every field the body sets holds that value in the record. */
  predicate CarriesBody(r: PassRecord, b: PassBody) {
    && (b.formType.Some? ==> r.formType == b.formType.value)
    && (b.date.Some? ==> r.date == b.date.value)
    && (b.academicYear.Some? ==> r.academicYear == b.academicYear.value)
    && (b.studentId.Some? ==> r.studentId == b.studentId.value)
    && (b.studentName.Some? ==> r.studentName == b.studentName.value)
    && (b.mobileNo.Some? ==> r.mobileNo == b.mobileNo.value)
    && (b.emailId.Some? ==> r.emailId == b.emailId.value)
    && (b.department.Some? ==> r.department == b.department.value)
    && (b.classYear.Some? ==> r.classYear == b.classYear.value)
    && (b.semester.Some? ==> r.semester == b.semester.value)
    && (b.busRoute.Some? ==> r.busRoute == b.busRoute.value)
    && (b.routeTo.Some? ==> r.routeTo == b.routeTo.value)
    && (b.passType.Some? ==> r.passType == b.passType.value)
    && (b.passAmount.Some? ==> r.passAmount == b.passAmount.value)
    && (b.receivedAmount.Some? ==> r.receivedAmount == b.receivedAmount.value)
    && (b.pendingAmount.Some? ==> r.pendingAmount == b.pendingAmount)
    && (b.status.Some? ==> r.status == b.status)
  }

  /** The record and the body agree on every field the body leaves out. */
  predicate KeepsUnset(r: PassRecord, prev: PassRecord, b: PassBody) {
    && (b.formType.None? ==> r.formType == prev.formType)
    && (b.date.None? ==> r.date == prev.date)
    && (b.academicYear.None? ==> r.academicYear == prev.academicYear)
    && (b.studentId.None? ==> r.studentId == prev.studentId)
    && (b.studentName.None? ==> r.studentName == prev.studentName)
    && (b.mobileNo.None? ==> r.mobileNo == prev.mobileNo)
    && (b.emailId.None? ==> r.emailId == prev.emailId)
    && (b.department.None? ==> r.department == prev.department)
    && (b.classYear.None? ==> r.classYear == prev.classYear)
    && (b.semester.None? ==> r.semester == prev.semester)
    && (b.busRoute.None? ==> r.busRoute == prev.busRoute)
    && (b.routeTo.None? ==> r.routeTo == prev.routeTo)
    && (b.passType.None? ==> r.passType == prev.passType)
    && (b.passAmount.None? ==> r.passAmount == prev.passAmount)
    && (b.receivedAmount.None? ==> r.receivedAmount == prev.receivedAmount)
    && (b.pendingAmount.None? ==> r.pendingAmount == prev.pendingAmount)
    && (b.status.None? ==> r.status == prev.status)
  }

  datatype Saved = Saved(store: Store, record: PassRecord)

  /**
   * `new BusPass(req.body).save()`: the body is validated against the schema
   * and stored as sent, with the status defaulting to active and both
   * timestamps set to `now`. A failed save adds nothing.
   */
  function CreatePass(s: Store, id: Id, now: int, b: PassBody): (r: Result<Saved, StoreError>)
    ensures r.Success? <==> ValidForCreate(b) && id !in s.passes
    ensures !ValidForCreate(b) ==> r == Failure(ValidationError)
    ensures r.Success? ==> r.value.store.passes == s.passes[id := r.value.record]
    ensures r.Success? ==> CarriesBody(r.value.record, b)
    ensures r.Success? ==> r.value.record.id == id && r.value.record.createdAt == now && r.value.record.updatedAt == now
    ensures r.Success? ==> r.value.record.status.Some? && IsStatusValue(r.value.record.status.value)
    ensures r.Success? && b.status.None? ==> r.value.record.status == Some(Active)
    ensures r.Success? ==> r.value.record.pendingAmount.Some?
    ensures r.Success? && WellFormed(s) ==> WellFormed(r.value.store)
  {
    if !ValidForCreate(b) then Failure(ValidationError)
    else if id in s.passes then Failure(DuplicateKey)
    else
      var rec := PassRecord(
        id, b.formType.value, b.date.value, b.academicYear.value, b.studentId.value,
        b.studentName.value, b.mobileNo.value, b.emailId.value, b.department.value,
        b.classYear.value, b.semester.value, b.busRoute.value, b.routeTo.value,
        b.passType.value, b.passAmount.value, b.receivedAmount.value, b.pendingAmount,
        Some(b.status.GetOr(Active)), now, now);
      Success(Saved(Store(s.passes[id := rec]), rec))
  }

  /** The notification the create handler asks the mailer to send. */
  datatype EmailRequest = EmailRequest(to: string, subject: string, studentName: string,
                                       busRoute: string, routeTo: string, receivedAmount: Option<int>)

  const ReceivedSubject := "Bus Pass Application Received"

  datatype CreateReply = CreateReply(status: int, store: Store, saved: Option<PassRecord>,
                                     email: Option<EmailRequest>, log: seq<string>)

  /**
   * POST /api/bus-pass. After a successful save an email is requested when
   * the body's `EmailId` is truthy; the send runs detached, and its failure
   * (`sendFails`) only adds a log line.
   */
  function HandleCreate(s: Store, id: Id, now: int, b: PassBody, sendFails: bool): (r: CreateReply)
    ensures r.status == 201 || r.status == 500
    ensures r.status == 201 <==> ValidForCreate(b) && id !in s.passes
    ensures r.status == 500 ==> r.store == s && r.saved.None? && r.email.None?
    ensures r.status == 201 ==> r.saved.Some? && r.store.passes == s.passes[id := r.saved.value]
    ensures r.email.Some? <==> r.status == 201 && RequiredText(b.emailId)
    ensures r.email.Some? ==> r.email.value.to == b.emailId.value
  {
    match CreatePass(s, id, now, b)
    case Failure(e) => CreateReply(HttpStatus(e), s, None, None, ["Error saving bus pass"])
    case Success(saved) =>
      if RequiredText(b.emailId) then
        var mail := EmailRequest(b.emailId.value, ReceivedSubject, b.studentName.GetOr(""),
                                 b.busRoute.GetOr(""), b.routeTo.GetOr(""), b.receivedAmount);
        CreateReply(201, saved.store, Some(saved.record), Some(mail),
                    if sendFails then ["Email send failed"] else [])
      else
        CreateReply(201, saved.store, Some(saved.record), None, [])
  }

  /** The mailer's outcome never reaches the response or the store: only the log differs. */
  lemma {:induction false} SendFailureIsContained(s: Store, id: Id, now: int, b: PassBody)
    ensures HandleCreate(s, id, now, b, true).status == HandleCreate(s, id, now, b, false).status
    ensures HandleCreate(s, id, now, b, true).store == HandleCreate(s, id, now, b, false).store
    ensures HandleCreate(s, id, now, b, true).saved == HandleCreate(s, id, now, b, false).saved
    ensures HandleCreate(s, id, now, b, true).email == HandleCreate(s, id, now, b, false).email
  {
  }

  /** `EmailId` is a required field, so every successful create requests an email. */
  lemma EveryCreateRequestsEmail(s: Store, id: Id, now: int, b: PassBody, sendFails: bool)
    requires HandleCreate(s, id, now, b, sendFails).status == 201
    ensures HandleCreate(s, id, now, b, sendFails).email.Some?
  {
  }

  /**
   * The server keeps no pending-amount invariant: a body whose amounts do not
   * reconcile is stored as sent.
   */
  lemma CreateKeepsUnreconciledAmounts(s: Store, id: Id, now: int, b: PassBody)
    requires id !in s.passes && ValidForCreate(b)
    requires b.passAmount == Some(500) && b.receivedAmount == Some(100) && b.pendingAmount == Some(0)
    ensures CreatePass(s, id, now, b).Success?
    ensures var r := CreatePass(s, id, now, b).value.record;
      r.pendingAmount == Some(0) && r.passAmount - r.receivedAmount == 400
  {
  }

  /** `studentId` is not a key: a second record may carry the same one. */
  lemma SharedStudentIdAllowed(s: Store, id1: Id, id2: Id, now: int, b: PassBody)
    requires CreatePass(s, id1, now, b).Success? && id2 != id1 && id2 !in s.passes
    ensures var s1 := CreatePass(s, id1, now, b).value.store;
      CreatePass(s1, id2, now, b).Success?
      && s1.passes[id1].studentId == CreatePass(s1, id2, now, b).value.record.studentId
  {
  }

  // ---- listing ----

  /** Newest first: `createdAt` never increases along the sequence. */
  predicate SortedNewestFirst(xs: seq<PassRecord>) {
    forall i, j :: 0 <= i < j < |xs| ==> xs[i].createdAt >= xs[j].createdAt
  }

  /** Places `r` into a newest-first sequence, ahead of every strictly older record. */
  function InsertByCreated(r: PassRecord, xs: seq<PassRecord>): (ys: seq<PassRecord>)
    requires SortedNewestFirst(xs)
    ensures SortedNewestFirst(ys)
    ensures |ys| == |xs| + 1
    ensures forall x :: x in ys <==> x == r || x in xs
    ensures multiset(ys) == multiset(xs) + multiset{r}
  {
    if |xs| == 0 || xs[0].createdAt <= r.createdAt then [r] + xs
    else
      assert xs == [xs[0]] + xs[1..];
      var rest := InsertByCreated(r, xs[1..]);
      NoneNewerThanHead(xs, r, rest);
      [xs[0]] + rest
  }

  /** Every element of `rest`, drawn from the tail of `xs` or being `r`, is no newer than the head of `xs`. */
  lemma NoneNewerThanHead(xs: seq<PassRecord>, r: PassRecord, rest: seq<PassRecord>)
    requires SortedNewestFirst(xs) && |xs| > 0 && r.createdAt < xs[0].createdAt
    requires forall x :: x in rest ==> x == r || x in xs[1..]
    ensures forall j :: 0 <= j < |rest| ==> rest[j].createdAt <= xs[0].createdAt
  {
    forall j | 0 <= j < |rest|
      ensures rest[j].createdAt <= xs[0].createdAt
    {
      assert rest[j] in rest;
      if rest[j] != r {
        var k :| 0 <= k < |xs[1..]| && xs[1..][k] == rest[j];
        assert xs[k + 1] == rest[j];
      }
    }
  }

  /**
   * GET /api/bus-pass: `find().sort({ createdAt: -1 })`. Every stored record
   * appears, nothing else does, and records come newest first; records
   * created at the same instant may come in either order.
   */
  method ListNewestFirst(s: Store) returns (out: seq<PassRecord>)
    ensures |out| == |s.passes|
    ensures forall i :: 0 <= i < |out| ==> out[i] in s.passes.Values
    ensures forall k :: k in s.passes ==> s.passes[k] in out
    ensures SortedNewestFirst(out)
  {
    var pending := s.passes.Keys;
    out := [];
    while pending != {}
      invariant pending <= s.passes.Keys
      invariant |out| + |pending| == |s.passes|
      invariant forall i :: 0 <= i < |out| ==> out[i] in s.passes.Values
      invariant forall k :: k in s.passes && k !in pending ==> s.passes[k] in out
      invariant SortedNewestFirst(out)
      decreases |pending|
    {
      var k :| k in pending;
      var next := InsertByCreated(s.passes[k], out);
      assert s.passes[k] in s.passes.Values;
      forall i | 0 <= i < |next|
        ensures next[i] in s.passes.Values
      {
        assert next[i] in next;
        if next[i] != s.passes[k] {
          var i' :| 0 <= i' < |out| && out[i'] == next[i];
        }
      }
      out := next;
      pending := pending - {k};
    }
  }

  // ---- delete and update ----

  /**
   * DELETE /api/bus-pass/:id: an unknown id is NotFound (404) and changes
   * nothing; otherwise exactly that record goes.
   */
  function DeletePass(s: Store, id: Id): (r: Result<Store, StoreError>)
    ensures r.Failure? <==> id !in s.passes
    ensures r.Failure? ==> r.error == NotFound
    ensures r.Success? ==> r.value.passes.Keys == s.passes.Keys - {id}
    ensures r.Success? ==> forall k :: k in r.value.passes ==> r.value.passes[k] == s.passes[k]
    ensures r.Success? ==> |r.value.passes| == |s.passes| - 1
  {
    if id !in s.passes then Failure(NotFound)
    else Success(Store(s.passes - {id}))
  }

  /**
   * The `$set` that `findByIdAndUpdate` applies: each field the body carries
   * overwrites, the rest stay, and `updatedAt` moves to `now`. No schema
   * validator runs, so `status` may take any string, and `pendingAmount` is
   * not recomputed from the amounts.
   */
  function Merge(prev: PassRecord, b: PassBody, now: int): (r: PassRecord)
    ensures CarriesBody(r, b) && KeepsUnset(r, prev, b)
    ensures r.id == prev.id && r.createdAt == prev.createdAt && r.updatedAt == now
  {
    prev.(formType := b.formType.GetOr(prev.formType),
         date := b.date.GetOr(prev.date),
         academicYear := b.academicYear.GetOr(prev.academicYear),
         studentId := b.studentId.GetOr(prev.studentId),
         studentName := b.studentName.GetOr(prev.studentName),
         mobileNo := b.mobileNo.GetOr(prev.mobileNo),
         emailId := b.emailId.GetOr(prev.emailId),
         department := b.department.GetOr(prev.department),
         classYear := b.classYear.GetOr(prev.classYear),
         semester := b.semester.GetOr(prev.semester),
         busRoute := b.busRoute.GetOr(prev.busRoute),
         routeTo := b.routeTo.GetOr(prev.routeTo),
         passType := b.passType.GetOr(prev.passType),
         passAmount := b.passAmount.GetOr(prev.passAmount),
         receivedAmount := b.receivedAmount.GetOr(prev.receivedAmount),
         pendingAmount := if b.pendingAmount.Some? then b.pendingAmount else prev.pendingAmount,
         status := if b.status.Some? then b.status else prev.status,
         updatedAt := now)
  }

  /** Applying the same update twice is applying it once. */
  lemma MergeIdempotent(prev: PassRecord, b: PassBody, now: int)
    ensures Merge(Merge(prev, b, now), b, now) == Merge(prev, b, now)
  {
  }

  /** An empty body only touches the update timestamp. */
  lemma MergeEmptyBody(prev: PassRecord, now: int)
    ensures Merge(prev, EmptyBody, now) == prev.(updatedAt := now)
  {
  }

  /**
   * PUT /api/bus-pass/:id: NotFound (404) for an unknown id; otherwise the
   * merged record replaces the prev one, the others are untouched, and the
   * updated record is returned.
   */
  function UpdatePass(s: Store, id: Id, now: int, b: PassBody): (r: Result<Saved, StoreError>)
    ensures r.Failure? <==> id !in s.passes
    ensures r.Failure? ==> r.error == NotFound
    ensures r.Success? ==> r.value.store.passes == s.passes[id := r.value.record]
    ensures r.Success? ==> CarriesBody(r.value.record, b) && KeepsUnset(r.value.record, s.passes[id], b)
    ensures r.Success? ==> r.value.record.id == s.passes[id].id && r.value.record.createdAt == s.passes[id].createdAt
    ensures r.Success? && WellFormed(s) ==> WellFormed(r.value.store)
  {
    if id !in s.passes then Failure(NotFound)
    else
      var rec := Merge(s.passes[id], b, now);
      Success(Saved(Store(s.passes[id := rec]), rec))
  }

  /** Changing an amount leaves the stored pending amount as it was. */
  lemma UpdateDoesNotRecomputePending(s: Store, id: Id, now: int, amount: int)
    requires id in s.passes
    ensures var r := UpdatePass(s, id, now, EmptyBody.(passAmount := Some(amount)));
      r.Success? && r.value.record.passAmount == amount
      && r.value.record.pendingAmount == s.passes[id].pendingAmount
  {
  }

  /** An update may store a status outside the schema's enum, since no validator runs. */
  lemma UpdateSkipsStatusEnum(s: Store, id: Id, now: int)
    requires id in s.passes
    ensures var r := UpdatePass(s, id, now, EmptyBody.(status := Some("suspended")));
      r.Success? && r.value.record.status == Some("suspended") && !IsStatusValue("suspended")
  {
  }
}

=== FILE: route_details.dfy ===
/**
 * The route details page (src/components/RouteDetails.tsx): the route named
 * in the URL is looked up in the catalogue without regard to case, the first
 * stop is preselected, and every place sent to the map gets ", Sangli,
 * Maharashtra" appended unless it already names Sangli.
 */
module RouteDetails {
  import opened Wrappers
  import opened Text
  import opened Seqs
  import opened Catalogue

  /** The `routeName` URL parameter, lower-cased; a missing parameter reads as "". */
  function RouteParam(param: Option<string>): (r: string)
    ensures param.None? ==> r == ""
    ensures param.Some? ==> r == Lower(param.value)
  {
    Lower(param.GetOr(""))
  }

  predicate NamedLike(p: string, r: BusRoute) {
    Lower(r.name) == p
  }

  function NameMatches(p: string): BusRoute -> bool {
    r => NamedLike(p, r)
  }

  /** `busData.find(r => r.name.toLowerCase() === routeName)`. */
  function FindRouteByParam(routes: seq<BusRoute>, param: Option<string>): (r: Option<BusRoute>)
    ensures r.Some? <==> exists i :: 0 <= i < |routes| && Lower(routes[i].name) == RouteParam(param)
    ensures r.Some? ==> r.value in routes && Lower(r.value.name) == RouteParam(param)
    ensures r.Some? ==> exists i :: (0 <= i < |routes| && routes[i] == r.value
      && forall j :: 0 <= j < i ==> Lower(routes[j].name) != RouteParam(param))
  {
    var p := RouteParam(param);
    var found := Find(routes, NameMatches(p));
    assert found.Some? ==> NamedLike(p, found.value);
    found
  }

  /** The lookup ignores the case of the URL: a parameter and its lower-cased form find the same route. */
  lemma LookupIgnoresCase(routes: seq<BusRoute>, param: string)
    ensures FindRouteByParam(routes, Some(param)) == FindRouteByParam(routes, Some(Lower(param)))
  {
    LowerIdempotent(param);
  }

  /** The stop selected first: the first stop's name, or "" for a route without stops. */
  function InitialStop(route: BusRoute): (s: string)
    ensures |route.stops| > 0 ==> s == route.stops[0].name
    ensures |route.stops| == 0 ==> s == ""
  {
    if |route.stops| > 0 then route.stops[0].name else ""
  }

  const NotFoundText := "Route not found."

  datatype Page = NotFoundPage(text: string) | RoutePage(route: BusRoute, selectedStop: string)

  /** What the page shows for a URL parameter. */
  function Render(routes: seq<BusRoute>, param: Option<string>): (page: Page)
    ensures page.NotFoundPage? <==> FindRouteByParam(routes, param).None?
    ensures page.NotFoundPage? ==> page.text == NotFoundText
    ensures page.RoutePage? ==>
      (page.route in routes && page.selectedStop == InitialStop(page.route)
       && Lower(page.route.name) == RouteParam(param))
  {
    match FindRouteByParam(routes, param)
    case None => NotFoundPage(NotFoundText)
    case Some(route) => RoutePage(route, InitialStop(route))
  }

  /** The initially selected stop is always one of the route's stops, when it has any. */
  lemma InitialStopIsAStop(route: BusRoute)
    requires |route.stops| > 0
    ensures exists i :: 0 <= i < |route.stops| && route.stops[i].name == InitialStop(route)
  {
    assert route.stops[0].name == InitialStop(route);
  }

  const SangliSuffix := ", Sangli, Maharashtra"

  /** `ensureSangli`. */
  function EnsureSangli(name: string): (r: string)
    ensures Contains(Lower(name), "sangli") ==> r == name
    ensures !Contains(Lower(name), "sangli") ==> r == name + SangliSuffix
  {
    if Contains(Lower(name), "sangli") then name else name + SangliSuffix
  }

  /** The suffix names Sangli in lower case too. */
  lemma SuffixMentionsSangli()
    ensures Contains(Lower(SangliSuffix), "sangli")
  {
    assert SangliSuffix == ", Sangli" + ", Maharashtra";
    LowerConcat(", Sangli", ", Maharashtra");
    assert Lower(", Sangli") == ", sangli";
    assert OccursAt(", sangli", "sangli", 2);
    ContainsAt(", sangli", "sangli", 2);
    ContainsInLeft(", sangli", Lower(", Maharashtra"), "sangli");
  }

  /** The result always names Sangli, whatever the case. */
  lemma EnsureSangliMentionsSangli(name: string)
    ensures Contains(Lower(EnsureSangli(name)), "sangli")
  {
    if !Contains(Lower(name), "sangli") {
      LowerConcat(name, SangliSuffix);
      SuffixMentionsSangli();
      ContainsInRight(Lower(name), Lower(SangliSuffix), "sangli");
    }
  }

  /** Applying it twice appends nothing more. */
  lemma EnsureSangliIdempotent(name: string)
    ensures EnsureSangli(EnsureSangli(name)) == EnsureSangli(name)
  {
    EnsureSangliMentionsSangli(name);
  }

  /** The input is always kept in front. */
  lemma EnsureSangliKeepsInput(name: string)
    ensures StartsWith(EnsureSangli(name), name)
    ensures |EnsureSangli(name)| == |name| || |EnsureSangli(name)| == |name| + |SangliSuffix|
  {
    var r := EnsureSangli(name);
    assert r[..|name|] == name;
  }
}

=== FILE: route_store.dfy ===
/**
 * The route collection (backend/models/Route.js) and its handlers
 * (backend/routes/routeRoutes.js). A route has a unique, required name, a
 * required origin and an embedded ordered list of stops; nothing requires
 * stop names to be distinct or fares to be positive. A failed save answers
 * 400, an unknown id 404.
 */
module RouteStore {
  import opened Wrappers
  import opened Catalogue

  type Id = string

  datatype RouteRecord = RouteRecord(id: Id, name: string, from: string, stops: seq<Stop>)

  datatype StopBody = StopBody(name: Option<string>, semester: Option<int>, yearly: Option<int>)

  /** A request body: the three route fields, plus whatever other keys the client sent. */
  datatype RouteBody = RouteBody(name: Option<string>, from: Option<string>,
                                 stops: Option<seq<StopBody>>, others: map<string, string>)

  datatype Store = Store(routes: map<Id, RouteRecord>)

  datatype RouteError = SaveRejected | NotFound

  function HttpStatus(e: RouteError): int {
    match e
    case NotFound => 404
    case SaveRejected => 400
  }

  /** A required String path, and also JavaScript truthiness of a string. */
  predicate Present(o: Option<string>) {
    o.Some? && o.value != ""
  }

  predicate ValidStop(b: StopBody) {
    Present(b.name) && b.semester.Some? && b.yearly.Some?
  }

  predicate ValidStops(bs: seq<StopBody>) {
    forall i :: 0 <= i < |bs| ==> ValidStop(bs[i])
  }

  /** The embedded stop documents built from valid stop bodies, in order. */
  function ToStops(bs: seq<StopBody>): (r: seq<Stop>)
    requires ValidStops(bs)
    ensures |r| == |bs|
    ensures forall i :: 0 <= i < |bs| ==>
      r[i] == Stop(bs[i].name.value, bs[i].semester.value, bs[i].yearly.value)
  {
    seq(|bs|, i requires 0 <= i < |bs| => Stop(bs[i].name.value, bs[i].semester.value, bs[i].yearly.value))
  }

  /** Some route other than `self` already has this name. */
  predicate NameTaken(s: Store, name: string, self: Id) {
    exists k :: k in s.routes && k != self && s.routes[k].name == name
  }

  /** What the schema and the unique index keep true of the collection. */
  predicate Invariant(s: Store) {
    && (forall k :: k in s.routes ==> s.routes[k].id == k)
    && (forall k :: k in s.routes ==> s.routes[k].name != "" && s.routes[k].from != "")
    && (forall k, k' :: k in s.routes && k' in s.routes && k != k' ==> s.routes[k].name != s.routes[k'].name)
  }

  datatype Saved = Saved(store: Store, route: RouteRecord)

  /**
   * POST /api/routes: a route built from `name`, `from` and `stops` only.
   * The save is rejected (400) for a missing name or origin, an incomplete
   * stop, a name another route has, or an id already in use.
   */
  function CreateRoute(s: Store, id: Id, b: RouteBody): (r: Result<Saved, RouteError>)
    ensures r.Success? <==>
      Present(b.name) && Present(b.from) && (b.stops.None? || ValidStops(b.stops.value))
      && id !in s.routes && !NameTaken(s, b.name.value, id)
    ensures r.Failure? ==> r.error == SaveRejected
    ensures r.Success? ==> r.value.store.routes == s.routes[id := r.value.route]
    ensures r.Success? ==> r.value.route.name == b.name.value && r.value.route.from == b.from.value
    ensures r.Success? && b.stops.None? ==> r.value.route.stops == []
    ensures r.Success? && b.stops.Some? ==> r.value.route.stops == ToStops(b.stops.value)
    ensures r.Success? && Invariant(s) ==> Invariant(r.value.store)
  {
    if !Present(b.name) || !Present(b.from) then Failure(SaveRejected)
    else if b.stops.Some? && !ValidStops(b.stops.value) then Failure(SaveRejected)
    else if id in s.routes || NameTaken(s, b.name.value, id) then Failure(SaveRejected)
    else
      var stops := if b.stops.Some? then ToStops(b.stops.value) else [];
      var route := RouteRecord(id, b.name.value, b.from.value, stops);
      Success(Saved(Store(s.routes[id := route]), route))
  }

  /** Keys other than name, from and stops make no difference. */
  lemma CreateIgnoresOtherKeys(s: Store, id: Id, b: RouteBody, others: map<string, string>)
    ensures CreateRoute(s, id, b.(others := others)) == CreateRoute(s, id, b)
  {
  }

  /** A second route with a name already in use is rejected. */
  lemma DuplicateNameRejected(s: Store, id: Id, b: RouteBody)
    requires Present(b.name)
    requires exists k :: k in s.routes && k != id && s.routes[k].name == b.name.value
    ensures CreateRoute(s, id, b) == Failure(SaveRejected)
  {
  }

  /**
   * The fields of an update: name and origin overwrite only when truthy (a
   * non-empty string); stops overwrite whenever supplied, since any array,
   * even an empty one, is truthy.
   */
  function Patched(prev: RouteRecord, b: RouteBody): (r: RouteRecord)
    requires b.stops.None? || ValidStops(b.stops.value)
    ensures r.id == prev.id
    ensures r.name == (if Present(b.name) then b.name.value else prev.name)
    ensures r.from == (if Present(b.from) then b.from.value else prev.from)
    ensures b.stops.None? ==> r.stops == prev.stops
    ensures b.stops.Some? ==> r.stops == ToStops(b.stops.value)
  {
    RouteRecord(prev.id,
                if Present(b.name) then b.name.value else prev.name,
                if Present(b.from) then b.from.value else prev.from,
                if b.stops.Some? then ToStops(b.stops.value) else prev.stops)
  }

  /**
   * PUT /api/routes/:id: 404 for an unknown id; otherwise the patched route is
   * saved, and the save is rejected (400) for an incomplete stop, an empty
   * name or origin, or a name another route has. Nothing changes on failure.
   */
  function UpdateRoute(s: Store, id: Id, b: RouteBody): (r: Result<Saved, RouteError>)
    ensures r == Failure(NotFound) <==> id !in s.routes
    ensures id in s.routes && r.Success? ==>
      (b.stops.None? || ValidStops(b.stops.value))
      && r.value.route == Patched(s.routes[id], b)
      && r.value.store.routes == s.routes[id := r.value.route]
    ensures id in s.routes ==>
      (r.Success? <==>
        && (b.stops.None? || ValidStops(b.stops.value))
        && Patched(s.routes[id], b).name != "" && Patched(s.routes[id], b).from != ""
        && !NameTaken(s, Patched(s.routes[id], b).name, id))
    ensures id in s.routes && r.Failure? ==> r.error == SaveRejected
    ensures id in s.routes && b.stops.Some? && !ValidStops(b.stops.value) ==> r == Failure(SaveRejected)
    ensures r.Success? && Invariant(s) ==> Invariant(r.value.store)
  {
    if id !in s.routes then Failure(NotFound)
    else if b.stops.Some? && !ValidStops(b.stops.value) then Failure(SaveRejected)
    else
      var route := Patched(s.routes[id], b);
      if route.name == "" || route.from == "" || NameTaken(s, route.name, id) then Failure(SaveRejected)
      else Success(Saved(Store(s.routes[id := route]), route))
  }

  /** An update whose name and origin are absent or empty changes neither. */
  lemma FalsyFieldsKept(s: Store, id: Id, b: RouteBody)
    requires Invariant(s) && id in s.routes
    requires !Present(b.name) && !Present(b.from) && b.stops.None?
    ensures UpdateRoute(s, id, b) == Success(Saved(s, s.routes[id]))
  {
    assert s.routes[id := s.routes[id]] == s.routes;
  }

  /** An empty stop list is truthy: it replaces the stops. */
  lemma EmptyStopsReplace(s: Store, id: Id)
    requires Invariant(s) && id in s.routes
    ensures var r := UpdateRoute(s, id, RouteBody(None, None, Some([]), map[]));
      r.Success? && r.value.route.stops == []
  {
  }

  /**
   * DELETE /api/routes/:id: 404 for an unknown id; otherwise that route goes
   * and every other one stays.
   */
  function DeleteRoute(s: Store, id: Id): (r: Result<Store, RouteError>)
    ensures r.Failure? <==> id !in s.routes
    ensures r.Failure? ==> r.error == NotFound
    ensures r.Success? ==> r.value.routes.Keys == s.routes.Keys - {id}
    ensures r.Success? ==> forall k :: k in r.value.routes ==> r.value.routes[k] == s.routes[k]
  {
    if id !in s.routes then Failure(NotFound)
    else Success(Store(s.routes - {id}))
  }

  /** GET /api/routes: every stored route exactly once, in the collection's own order. */
  method ListRoutes(s: Store) returns (out: seq<RouteRecord>)
    ensures |out| == |s.routes|
    ensures forall i :: 0 <= i < |out| ==> out[i] in s.routes.Values
    ensures forall k :: k in s.routes ==> s.routes[k] in out
  {
    var pending := s.routes.Keys;
    out := [];
    while pending != {}
      invariant pending <= s.routes.Keys
      invariant |out| + |pending| == |s.routes|
      invariant forall i :: 0 <= i < |out| ==> out[i] in s.routes.Values
      invariant forall k :: k in s.routes && k !in pending ==> s.routes[k] in out
      decreases |pending|
    {
      var k :| k in pending;
      assert s.routes[k] in s.routes.Values;
      out := out + [s.routes[k]];
      pending := pending - {k};
    }
  }
}

=== FILE: seqs.dfy ===
/**
 * The array operations the dashboard and the form use: `filter`, `find`,
 * counting, summing, and the set of keys a loop collects.
 */
module Seqs {
  import opened Wrappers

  /** `a` is `b` with some elements dropped and the rest kept in order. */
  predicate IsSubsequence<T(==)>(a: seq<T>, b: seq<T>)
    decreases |b|
  {
    |a| == 0 || (|b| > 0 && ((a[0] == b[0] && IsSubsequence(a[1..], b[1..])) || IsSubsequence(a, b[1..])))
  }

  /** Every sequence is a subsequence of itself. */
  lemma {:induction false} SubsequenceRefl<T>(s: seq<T>)
    ensures IsSubsequence(s, s)
    decreases |s|
  {
    if |s| > 0 {
      SubsequenceRefl(s[1..]);
    }
  }

  /** `Array.prototype.filter`. */
  function Filter<T(==)>(s: seq<T>, p: T -> bool): (r: seq<T>)
    ensures |r| <= |s|
    ensures forall i :: 0 <= i < |r| ==> r[i] in s && p(r[i])
    ensures forall i :: 0 <= i < |s| && p(s[i]) ==> s[i] in r
    ensures IsSubsequence(r, s)
  {
    if |s| == 0 then []
    else if p(s[0]) then [s[0]] + Filter(s[1..], p)
    else Filter(s[1..], p)
  }

  lemma {:induction false} FilterAppend<T>(s: seq<T>, x: T, p: T -> bool)
    ensures Filter(s + [x], p) == Filter(s, p) + (if p(x) then [x] else [])
    decreases |s|
  {
    if |s| > 0 {
      assert (s + [x])[1..] == s[1..] + [x];
      FilterAppend(s[1..], x, p);
    }
  }

  /** Filtering with a predicate every element satisfies keeps everything. */
  lemma {:induction false} FilterAll<T>(s: seq<T>, p: T -> bool)
    requires forall i :: 0 <= i < |s| ==> p(s[i])
    ensures Filter(s, p) == s
    decreases |s|
  {
    if |s| > 0 {
      FilterAll(s[1..], p);
    }
  }

  /** Two predicates that agree on every element filter alike. */
  lemma {:induction false} FilterCongruent<T>(s: seq<T>, p: T -> bool, q: T -> bool)
    requires forall i :: 0 <= i < |s| ==> p(s[i]) == q(s[i])
    ensures Filter(s, p) == Filter(s, q)
    decreases |s|
  {
    if |s| > 0 {
      FilterCongruent(s[1..], p, q);
    }
  }

  /** The number of elements satisfying `p`, as `filter(p).length`. */
  function Count<T(==)>(s: seq<T>, p: T -> bool): nat {
    |Filter(s, p)|
  }

  /** The first index whose element satisfies `p`: `Array.prototype.findIndex`. */
  function FirstIndex<T>(s: seq<T>, p: T -> bool): (r: Option<nat>)
    ensures r.Some? ==> r.value < |s| && p(s[r.value])
    ensures r.Some? ==> forall j :: 0 <= j < r.value ==> !p(s[j])
    ensures r.None? <==> forall j :: 0 <= j < |s| ==> !p(s[j])
  {
    if |s| == 0 then None
    else if p(s[0]) then Some(0)
    else match FirstIndex(s[1..], p)
      case None => None
      case Some(i) => Some(i + 1)
  }

  /** `Array.prototype.find`. */
  function Find<T>(s: seq<T>, p: T -> bool): (r: Option<T>)
    ensures r.Some? <==> exists i :: 0 <= i < |s| && p(s[i])
    ensures r.Some? ==> p(r.value) && r.value in s
    ensures r.Some? ==> exists i :: 0 <= i < |s| && s[i] == r.value && forall j :: 0 <= j < i ==> !p(s[j])
  {
    match FirstIndex(s, p)
    case None => None
    case Some(i) => Some(s[i])
  }

  /** `xs.map(f).reduce((a, b) => a + b, 0)`, folded left to right. */
  function Sum<T>(s: seq<T>, f: T -> int): int {
    if |s| == 0 then 0 else Sum(s[..|s| - 1], f) + f(s[|s| - 1])
  }

  lemma SumNonNegative<T>(s: seq<T>, f: T -> int)
    requires forall i :: 0 <= i < |s| ==> f(s[i]) >= 0
    ensures Sum(s, f) >= 0
  {
    if |s| > 0 {
      SumNonNegative(s[..|s| - 1], f);
    }
  }

  /** The set a loop builds by adding `key(x)` for every element `x`. */
  function KeySet<T>(s: seq<T>, key: T -> string): set<string> {
    set i | 0 <= i < |s| :: key(s[i])
  }

  /** Taking one more element of a sequence appends it. */
  lemma TakeSnoc<T>(s: seq<T>, i: nat)
    requires i < |s|
    ensures s[..i + 1] == s[..i] + [s[i]]
  {
  }

  /** Adding one more element adds its key. */
  lemma KeySetSnoc<T>(s: seq<T>, x: T, key: T -> string)
    ensures KeySet(s + [x], key) == KeySet(s, key) + {key(x)}
  {
    var t := s + [x];
    forall k | k in KeySet(t, key)
      ensures k in KeySet(s, key) + {key(x)}
    {
      var i :| 0 <= i < |t| && key(t[i]) == k;
      if i < |s| {
        assert key(s[i]) == k;
      }
    }
    forall k | k in KeySet(s, key) + {key(x)}
      ensures k in KeySet(t, key)
    {
      if k == key(x) {
        assert key(t[|s|]) == k;
      } else {
        var i :| 0 <= i < |s| && key(s[i]) == k;
        assert key(t[i]) == k;
      }
    }
  }

  /** A set collected from a sequence has at most as many members as the sequence. */
  lemma {:induction false} KeySetBound<T>(s: seq<T>, key: T -> string)
    ensures |KeySet(s, key)| <= |s|
  {
    if |s| > 0 {
      var init := s[..|s| - 1];
      KeySetBound(init, key);
      assert s == init + [s[|s| - 1]];
      KeySetSnoc(init, s[|s| - 1], key);
    }
  }

  /** `Array.prototype.map`. */
  function Map<T, U>(s: seq<T>, f: T -> U): (r: seq<U>)
    ensures |r| == |s| && forall i :: 0 <= i < |s| ==> r[i] == f(s[i])
  {
    seq(|s|, i requires 0 <= i < |s| => f(s[i]))
  }
}

=== FILE: text.dfy ===
/**
 * The JavaScript string operations the application relies on: `toLowerCase`,
 * `includes`, `trim`, the regular-expression classes `\s`, `\d` and
 * `[0-9a-fA-F]`, and the decimal rendering of integers in template literals.
 * Case mapping is modelled for ASCII letters only.
 */
module Text {
  import opened Wrappers

  /** The characters matched by `\s` in a JavaScript regular expression; the
      same set is stripped by `String.prototype.trim`. */
  predicate IsJsSpace(c: char) {
    || c == ' ' || c == '\t' || c == '\n' || c == '\r'
    || c == '\U{000B}' || c == '\U{000C}' || c == '\U{00A0}' || c == '\U{1680}'
    || ('\U{2000}' <= c <= '\U{200A}')
    || c == '\U{2028}' || c == '\U{2029}' || c == '\U{202F}' || c == '\U{205F}'
    || c == '\U{3000}' || c == '\U{FEFF}'
  }

  predicate IsDigit(c: char) { '0' <= c <= '9' }

  predicate IsAsciiLetter(c: char) { ('A' <= c <= 'Z') || ('a' <= c <= 'z') }

  predicate IsHexDigit(c: char) { IsDigit(c) || ('a' <= c <= 'f') || ('A' <= c <= 'F') }

  predicate AllDigits(s: string) { forall i :: 0 <= i < |s| ==> IsDigit(s[i]) }

  function LowerChar(c: char): char {
    if 'A' <= c <= 'Z' then (c as int + 32) as char else c
  }

  /** `toLowerCase`, restricted to the ASCII letters. */
  function Lower(s: string): (r: string)
    ensures |r| == |s|
    ensures forall i :: 0 <= i < |s| ==> r[i] == LowerChar(s[i])
  {
    seq(|s|, i requires 0 <= i < |s| => LowerChar(s[i]))
  }

  lemma LowerConcat(a: string, b: string)
    ensures Lower(a + b) == Lower(a) + Lower(b)
  {
  }

  lemma LowerIdempotent(s: string)
    ensures Lower(Lower(s)) == Lower(s)
  {
  }

  predicate StartsWith(s: string, p: string) {
    |p| <= |s| && s[..|p|] == p
  }

  /** `t` occurs in `s` starting at position `i`. */
  predicate OccursAt(s: string, t: string, i: int) {
    0 <= i && i + |t| <= |s| && s[i..i + |t|] == t
  }

  /** `s.includes(t)`, scanning the start positions of `s` one at a time. */
  predicate Contains(s: string, t: string)
    decreases |s|
  {
    StartsWith(s, t) || (|s| > 0 && Contains(s[1..], t))
  }

  /** The scan finds `t` exactly when `t` occurs at some position of `s`. */
  lemma {:induction false} ContainsIff(s: string, t: string)
    ensures Contains(s, t) <==> exists i :: OccursAt(s, t, i)
    decreases |s|
  {
    if StartsWith(s, t) {
      assert OccursAt(s, t, 0);
    } else if |s| > 0 {
      forall i | 1 <= i && OccursAt(s, t, i)
        ensures OccursAt(s[1..], t, i - 1)
      {
        assert s[1..][i - 1..i - 1 + |t|] == s[i..i + |t|];
      }
      ContainsIff(s[1..], t);
      if Contains(s[1..], t) {
        var i :| OccursAt(s[1..], t, i);
        assert s[i + 1..i + 1 + |t|] == s[1..][i..i + |t|];
        assert OccursAt(s, t, i + 1);
      }
    }
  }

  lemma ContainsAt(s: string, t: string, i: nat)
    requires OccursAt(s, t, i)
    ensures Contains(s, t)
  {
    ContainsIff(s, t);
  }

  lemma ContainsInLeft(a: string, b: string, t: string)
    requires Contains(a, t)
    ensures Contains(a + b, t)
  {
    ContainsIff(a, t);
    var i :| OccursAt(a, t, i);
    assert (a + b)[i..i + |t|] == a[i..i + |t|];
    ContainsAt(a + b, t, i);
  }

  lemma ContainsInRight(a: string, b: string, t: string)
    requires Contains(b, t)
    ensures Contains(a + b, t)
  {
    ContainsIff(b, t);
    var i :| OccursAt(b, t, i);
    assert (a + b)[|a| + i..|a| + i + |t|] == b[i..i + |t|];
    ContainsAt(a + b, t, |a| + i);
  }

  lemma ContainsSelf(t: string)
    ensures Contains(t, t)
  {
    assert StartsWith(t, t);
  }

  /** `trimStart`: drops leading `\s` characters. */
  function TrimStart(s: string): (r: string)
    ensures |r| <= |s| && r == s[|s| - |r|..]
    ensures |r| > 0 ==> !IsJsSpace(r[0])
    ensures forall i :: 0 <= i < |s| - |r| ==> IsJsSpace(s[i])
  {
    if |s| > 0 && IsJsSpace(s[0]) then TrimStart(s[1..]) else s
  }

  /** `trimEnd`: drops trailing `\s` characters. */
  function TrimEnd(s: string): (r: string)
    ensures |r| <= |s| && r == s[..|r|]
    ensures |r| > 0 ==> !IsJsSpace(r[|r| - 1])
    ensures forall i :: |r| <= i < |s| ==> IsJsSpace(s[i])
  {
    if |s| > 0 && IsJsSpace(s[|s| - 1]) then TrimEnd(s[..|s| - 1]) else s
  }

  /** `trim`: the longest infix of `s` that neither starts nor ends with `\s`. */
  function Trim(s: string): (r: string)
    ensures exists a :: OccursAt(s, r, a)
    ensures |r| > 0 ==> !IsJsSpace(r[0]) && !IsJsSpace(r[|r| - 1])
  {
    var t := TrimStart(s);
    var r := TrimEnd(t);
    assert r == s[|s| - |t|..|s| - |t| + |r|];
    assert OccursAt(s, r, |s| - |t|);
    r
  }

  /** Every character is `\s` (vacuously true of the empty string). */
  predicate Blank(s: string) {
    forall i :: 0 <= i < |s| ==> IsJsSpace(s[i])
  }

  /** A string trims to nothing exactly when it is all `\s`. */
  lemma TrimEmptyIff(s: string)
    ensures Trim(s) == [] <==> Blank(s)
  {

  }

  // ---- decimal rendering of integers, as template literals print them ----

  function DigitChar(d: nat): char
    requires d < 10
  {
    ('0' as int + d) as char
  }

  function DigitValue(c: char): nat
    requires IsDigit(c)
  {
    c as int - '0' as int
  }

  /** The decimal digits of `n`, without leading zeros. */
  function NatToString(n: nat): (r: string)
    ensures |r| > 0 && AllDigits(r)
    ensures r[0] == '0' ==> n == 0
  {
    if n < 10 then [DigitChar(n)] else NatToString(n / 10) + [DigitChar(n % 10)]
  }

  /** `${i}` for an integer `i`: a minus sign, then the digits of `|i|`. */
  function IntToString(i: int): (r: string)
    ensures |r| > 0
    ensures i >= 0 <==> AllDigits(r)
  {
    if i < 0 then
      var r := "-" + NatToString(-i);
      assert !IsDigit(r[0]);
      r
    else NatToString(i)
  }

  /** The value of a non-empty string of decimal digits. */
  function DigitsValue(s: string): nat
    requires AllDigits(s)
  {
    if |s| == 0 then 0 else DigitsValue(s[..|s| - 1]) * 10 + DigitValue(s[|s| - 1])
  }

  /** Reads a string as a natural number: one or more decimal digits. */
  function ParseNat(s: string): (r: Option<nat>)
    ensures r.Some? <==> |s| > 0 && AllDigits(s)
  {
    if |s| > 0 && AllDigits(s) then Some(DigitsValue(s)) else None
  }

  /** Printing a natural number and reading it back gives the number. */
  lemma {:induction false} ParseNatToString(n: nat)
    ensures ParseNat(NatToString(n)) == Some(n)
  {
    var s := NatToString(n);
    if n < 10 {
      assert s == [DigitChar(n)];
      assert DigitsValue(s) == DigitsValue([]) * 10 + DigitValue(DigitChar(n));
    } else {
      ParseNatToString(n / 10);
      assert s[..|s| - 1] == NatToString(n / 10);
      assert s[|s| - 1] == DigitChar(n % 10);
      assert DigitsValue(s) == (n / 10) * 10 + n % 10;
    }
  }

  lemma NatToStringInjective(m: nat, n: nat)
    requires NatToString(m) == NatToString(n)
    ensures m == n
  {
    ParseNatToString(m);
    ParseNatToString(n);
  }
}

=== FILE: verify.dfy ===
/**
 * The pass-verification handler (backend/routes/verifyRoutes.js): a scanned
 * token is resolved to a stored record, first as a student id and then, when
 * it has the shape of an ObjectId, as a record id; the record's status then
 * decides the verdict. The issue date plays no part: the expiry check of the
 * handler is commented out.
 */
module Verification {
  import opened Wrappers
  import opened Text
  import Dates
  import PassStore

  type PassRecord = PassStore.PassRecord

  /** `/^[0-9a-fA-F]{24}$/`. */
  predicate IsObjectIdShape(token: string) {
    |token| == 24 && forall i :: 0 <= i < |token| ==> IsHexDigit(token[i])
  }

  /** Some stored record carries `token` as its student id. */
  predicate HasStudentId(s: PassStore.Store, token: string) {
    exists id :: id in s.passes && s.passes[id].studentId == token
  }

  /**
   * The record id a token names when it is cast to an ObjectId: the cast
   * reads hexadecimal without regard to case, and stored ids are written in
   * lower case.
   */
  function CastId(token: string): string {
    Lower(token)
  }

  datatype Verdict =
    | NotFound
    | Inactive(pass: PassRecord)
    | Valid(pass: PassRecord)

  /** The status check applied to a resolved record. */
  function Judge(p: PassRecord): (v: Verdict)
    ensures !v.NotFound? && v.pass == p
    ensures v.Valid? <==> p.status == Some(PassStore.Active)
  {
    if p.status != Some(PassStore.Active) then Inactive(p) else Valid(p)
  }

  /**
   * Resolves a token. The student-id lookup comes first, so a token that
   * looks like an ObjectId but also matches a student id resolves by student
   * id. Several records may share a student id; which one `findOne` returns
   * is up to the database, so any of them may be chosen.
   */
  method Resolve(s: PassStore.Store, token: string) returns (v: Verdict)
    ensures v.NotFound? <==>
      !HasStudentId(s, token) && !(IsObjectIdShape(token) && CastId(token) in s.passes)
    ensures HasStudentId(s, token) ==>
      !v.NotFound? && v.pass in s.passes.Values && v.pass.studentId == token && v == Judge(v.pass)
    ensures !HasStudentId(s, token) && IsObjectIdShape(token) && CastId(token) in s.passes ==>
      v == Judge(s.passes[CastId(token)])
  {
    if HasStudentId(s, token) {
      var id :| id in s.passes && s.passes[id].studentId == token;
      v := Judge(s.passes[id]);
    } else if IsObjectIdShape(token) && CastId(token) in s.passes {
      v := Judge(s.passes[CastId(token)]);
    } else {
      v := NotFound;
    }
  }

  /** The JSON reply: HTTP status, the `valid` flag, the message and the record. */
  datatype Reply = Reply(status: int, valid: bool, message: string, student: Option<PassRecord>)

  const NotFoundMessage := "Bus pass not found"
  const InactiveMessage := "Bus pass is inactive"
  const ValidMessage := "Bus pass is valid"

  function Respond(v: Verdict): (r: Reply)
    ensures r.status == 404 <==> v.NotFound?
    ensures r.valid <==> v.Valid?
    ensures r.student.None? <==> v.NotFound?
    ensures !v.NotFound? ==> r.student == Some(v.pass) && r.status == 200
    ensures v.NotFound? ==> r.message == NotFoundMessage
    ensures v.Inactive? ==> r.message == InactiveMessage
    ensures v.Valid? ==> r.message == ValidMessage
  {
    match v
    case NotFound => Reply(404, false, NotFoundMessage, None)
    case Inactive(p) => Reply(200, false, InactiveMessage, Some(p))
    case Valid(p) => Reply(200, true, ValidMessage, Some(p))
  }

  /** A pass counts as valid exactly when its status is the string "active". */
  lemma ValidIffActive(p: PassRecord)
    ensures Respond(Judge(p)).valid <==> p.status == Some(PassStore.Active)
    ensures p.status.None? ==> !Respond(Judge(p)).valid
  {
  }

  /**
   * No expiry check: changing a record's issue date, pass type or timestamps
   * never changes the verdict's validity.
   */
  lemma NoExpiryCheck(p: PassRecord, date: Dates.Day, passType: string, createdAt: int)
    ensures Judge(p.(date := date, passType := passType, createdAt := createdAt)).Valid?
        == Judge(p).Valid?
  {
  }
}

=== FILE: wrappers.dfy ===
/** Option and Result, the failure-carrying datatypes used by every store operation. */
module Wrappers {

  datatype Option<+T> = None | Some(value: T) {
    function GetOr(default: T): T {
      match this
      case Some(v) => v
      case None => default
    }
  }

  datatype Result<+R, +E> = Success(value: R) | Failure(error: E)
}
